=== FILE: README.md ===
# Plugin runtime core: store and code references

This project models two parts of the dynamic plugin runtime.

The first is the plugin store. It keeps:

- the loaded plugins and the failed plugins, each a map in insertion order;
- the feature flags;
- the cached list of extensions in use.

The store handles these transitions:

- attaching a loader and handling the results it delivers;
- adding a plugin and recording a failed one;
- enabling and disabling plugins;
- merging feature flags.

Every transition is a pure function. It takes a store and returns the next store together with the events it emits, in order. The listener registry is modelled as well: it decides which listeners an emitted event calls.

The second part is the code-reference codec and resolver:

- it parses `$codeRef` strings;
- it decodes wire-form references in an extension's property tree into code references bound to the plugin's entry module;
- it resolves every code reference in the tree, collecting all failures before deciding the outcome.

Files and modules:

- `wrappers.dfy` (`Wrappers`): `Option` and `Result`.
- `ordered_maps.dfy` (`OrderedMaps`): a JavaScript `Map` with string keys, as a sequence of entries. Setting an existing key keeps its position. Deleting a key and setting it again moves it to the end.
- `types.dfy` (`Types`): defines the property tree (`Value`), code references, extensions and events. It also defines the entry module, modelled as an abstract loader function from module name to module or error.
- `visitor.dfy` (`Visitor`): a structural model of the `visitDeep` helper, plus reference definitions of what a visit rewrites and what it collects.
- `coderefs.dfy` (`CodeRefs`): the code-reference functions.
- `plugin_store.dfy` (`PluginStore`): the store, its transitions and its invariant `Valid`.
- `store_properties.dfy` (`StoreProperties`): preservation of `Valid` by every transition and by any sequence of calls, idempotence, commutation, and uid uniqueness.
- `listeners.dfy` (`Listeners`): subscription, unsubscription and listener invocation.
- `scenarios.dfy` (`Scenarios`): worked examples, as lemmas about the model.

Three behaviours of the code are worth stating up front:

- **Load order.** The list in use follows load order. Swapping the loads of two different plugins can change the order of the list, never its members: `StoreProperties.Reachable` states that the list is `ConcatInUse` of the loaded plugins in map order, and its membership clause does not depend on that order. Two outcomes for the same plugin name do not commute: the later one wins, since `addPlugin` drops the failure recorded for the name and `registerFailedPlugin` drops the loaded plugin.
- **A failure named `""`.** A loader failure whose plugin name is the empty string is treated like one without a name: the store changes nothing. This follows the truthiness test at `PluginStore.ts:88`.
- **A stale disconnect.** The function `setLoader` returns unsubscribes its own loader but clears whichever loader is attached. Called after a newer loader was attached, it leaves the store reporting no loader while the newer loader still delivers results (`StoreProperties.StaleDisconnect`).

## Model

| member | source | states |
|---|---|---|
| OrderedMaps.Set | packages/lib-core/src/runtime/PluginStore.ts:293-298 | `Map.set`: an existing key is replaced in place; a new key is appended at the end |
| OrderedMaps.Delete | packages/lib-core/src/runtime/PluginStore.ts:300 | `Map.delete`: afterwards exactly the other keys remain. Deleting an absent key changes nothing. Without duplicate keys, the entry is cut out and the rest keep their order |
| OrderedMaps.GetSet | packages/lib-core/src/runtime/PluginStore.ts:293-298 | `get` after `set`: the key just set finds the new value; every other key finds what it found before |
| OrderedMaps.GetDelete | packages/lib-core/src/runtime/PluginStore.ts:300 | `get` after `delete`, without duplicate keys: the deleted key finds nothing; every other key finds what it found before |
| OrderedMaps.SetKeys | packages/lib-core/src/runtime/PluginStore.ts:293 | after a set, the keys are the old keys plus the new one, and keys stay unique |
| OrderedMaps.SetFound | packages/lib-core/src/runtime/PluginStore.ts:293-298 | after a set, looking the key up finds the entry just written |
| PluginStore.NewStore | packages/lib-core/src/runtime/PluginStore.ts:57-66 | a new store is empty and has no loader; enabling on load is the default unless the options turn it off |
| PluginStore.SetLoader | packages/lib-core/src/runtime/PluginStore.ts:75-80 | attaching fails with "PluginLoader is already set" exactly when a loader is attached; otherwise this loader is attached and nothing else changes |
| PluginStore.Disconnect | packages/lib-core/src/runtime/PluginStore.ts:104-107 | after the returned function runs, `hasLoader` is false and nothing else changed |
| PluginStore.AllMapTo | packages/lib-core/src/runtime/PluginStore.ts:255-256 | `every` over a flag list holds exactly when every listed flag is present with the wanted value |
| PluginStore.IsExtensionInUse | packages/lib-core/src/runtime/PluginStore.ts:253-258 | in use exactly when every required flag is present and `true` and every disallowed flag is present and `false`. A missing list is met; a missing flag key is not |
| PluginStore.FilterInUse | packages/lib-core/src/runtime/PluginStore.ts:265 | the filter keeps exactly the plugin's extensions that are in use, in their declared order (a subsequence of the input) |
| PluginStore.ReduceInUse | packages/lib-core/src/runtime/PluginStore.ts:263-267 | the left fold of the `reduce`, with no contract of its own; `PluginStore.ReduceIsConcat` states what it computes |
| PluginStore.HasLoader | packages/lib-core/src/runtime/PluginStore.ts:113-115 | whether a loader is attached, with no contract of its own. `SetLoader` fails exactly when it holds, `Disconnect` makes it false, and `StoreProperties.Reachable` keeps an attached loader subscribed |
| PluginStore.ReduceIsConcat | packages/lib-core/src/runtime/PluginStore.ts:263-267 | the `reduce` over the loaded plugins equals the reference concatenation of each enabled plugin's in-use extensions, in map order |
| PluginStore.UpdateExtensions | packages/lib-core/src/runtime/PluginStore.ts:260-272 | the new list is the reference concatenation. `ExtensionsChanged` is emitted exactly when the list differs from the previous one. Nothing else changes |
| PluginStore.GetExtensions | packages/lib-core/src/runtime/PluginStore.ts:146-148 | in a valid store, the returned list is the reference list for the current plugins and flags |
| PluginStore.PickBooleans | packages/lib-core/src/runtime/PluginStore.ts:180 | `pickBy` keeps exactly the patch entries whose values are booleans, with those values |
| PluginStore.MergeFlags | packages/lib-core/src/runtime/PluginStore.ts:178-181 | after the merge, keys are the old keys plus the boolean keys of the patch. Patch values win; other keys keep their old values |
| PluginStore.SetFeatureFlags | packages/lib-core/src/runtime/PluginStore.ts:175-187 | merges only booleans; only the flags and the list in use change. `FeatureFlagsChanged` is emitted exactly when the flags differ by value, and then after the rebuild's `ExtensionsChanged`. With no change: same store, no events |
| PluginStore.FlipPlugins | packages/lib-core/src/runtime/PluginStore.ts:209-231 | the `forEach` skips unknown names and flips only plugins whose `enabled` differs, giving them the new reason. It leaves keys and order alone and reports a change exactly when some listed plugin differed |
| PluginStore.FlipSkipped | packages/lib-core/src/runtime/PluginStore.ts:212-219 | a name that is not loaded, or whose plugin already has the wanted flag, contributes nothing |
| PluginStore.FlipApplied | packages/lib-core/src/runtime/PluginStore.ts:224-228 | a loaded name whose flag differs is flipped, with the reason set |
| PluginStore.SetPluginsEnabled | packages/lib-core/src/runtime/PluginStore.ts:204-237 | every listed loaded plugin whose flag differs is flipped and no other changes. Events occur exactly when something flipped: one rebuild, then `PluginInfoChanged` once. If nothing flipped, nothing changes |
| PluginStore.EnablePlugins | packages/lib-core/src/runtime/PluginStore.ts:239-244 | listed loaded plugins end enabled; flipped ones lose their disable reason; unlisted ones are untouched |
| PluginStore.DisablePlugins | packages/lib-core/src/runtime/PluginStore.ts:246-251 | listed loaded plugins end disabled; flipped ones record the given reason; unlisted ones are untouched |
| PluginStore.ProcessExtensions | packages/lib-core/src/runtime/PluginStore.ts:327-345 | one extension per manifest extension, keeping kind and flags. Each gets `pluginName` and `uid = name[index]_hash`. Decoding leaves no encoded reference below the root, and written back gives the manifest's tree |
| PluginStore.AddPlugin | packages/lib-core/src/runtime/PluginStore.ts:279-308 | stores the plugin disabled under its name, hash from the manifest or else a fresh one, and drops any failed entry. Emits `PluginInfoChanged`; only a reload rebuilds the list |
| PluginStore.RegisterFailedPlugin | packages/lib-core/src/runtime/PluginStore.ts:310-322 | drops any loaded entry, records the failure, emits `PluginInfoChanged`; only a reload rebuilds the list, after that event |
| PluginStore.HandleLoaderResult | packages/lib-core/src/runtime/PluginStore.ts:82-101 | flags, loader and the enabling option never change. A failure without a non-empty name changes nothing. After a named failure the name is failed with that message and cause and not loaded, and `map.get` of every other name gives what it gave before. After a success the manifest's name is no longer failed, and the loaded map is `SucceededLoaded`: the keys in `addPlugin`'s order; under the manifest's name the record built from the manifest (metadata, extensions, entry module, build hash), enabled exactly when the store enables on load and the loader reported that name; a different reported name that is loaded is enabled when the store enables on load; every other name as before. Both emit `PluginInfoChanged` first |
| PluginStore.LoadFailedStep | packages/lib-core/src/runtime/PluginStore.ts:86-92 | a named failure leaves the name failed with the given message and cause, not loaded, every other name as before in both maps, flags and loader unchanged, and `PluginInfoChanged` first |
| PluginStore.LoadSucceededStep | packages/lib-core/src/runtime/PluginStore.ts:95-101 | after a success the failed map loses only the manifest's name; flags and loader are unchanged; the loaded map is `SucceededLoaded`: the manifest's record stored whole, enabled exactly when enabling on load and the reported name is the manifest's, a differing reported loaded name enabled on load (PluginStore.ts:97-99), and every other plugin as before |
| PluginStore.SucceededRecords | packages/lib-core/src/runtime/PluginStore.ts:95-99 | the loaded map `addPlugin` followed by `enablePlugins([pluginName])` leaves is, name by name through `map.get`, the one `SucceededLoaded` describes |
| PluginStore.AddedDisabled | packages/lib-core/src/runtime/PluginStore.ts:293-300 | after `addPlugin` the plugin is loaded with the new entry module, disabled and no longer failed, and loaded keys stay unique |
| PluginStore.EnabledNamed | packages/lib-core/src/runtime/PluginStore.ts:239-244 | enabling one name keeps every loaded plugin loaded with its entry module: the named one ends enabled, the others as they were; the failed map is unchanged |
| PluginStore.GetPluginInfo | packages/lib-core/src/runtime/PluginStore.ts:150-173 | one entry per loaded plugin, in map order, then one per failed plugin, with the fields each map holds |
| PluginStore.GetExposedModule | packages/lib-core/src/runtime/PluginStore.ts:347-364 | a plugin that is not loaded fails with "Attempt to get module ... which is not loaded yet". Otherwise it returns the module from that plugin's entry module, or an error ending in " of plugin " and the name |
| StoreProperties.ConcatAppend | packages/lib-core/src/runtime/PluginStore.ts:263-267 | a plugin loaded at the end contributes its in-use extensions at the end of the list |
| StoreProperties.InUseMembership | packages/lib-core/src/runtime/PluginStore.ts:263-267 | an extension is in the list exactly when some enabled plugin declares it and its flags are met, whatever the plugins' order |
| StoreProperties.NewStoreValid | packages/lib-core/src/runtime/PluginStore.ts:42-55 | the new store satisfies the invariant |
| StoreProperties.SetFeatureFlagsPreservesValid | packages/lib-core/src/runtime/PluginStore.ts:175-187 | merging flags keeps the invariant |
| StoreProperties.SetPluginsEnabledPreservesValid | packages/lib-core/src/runtime/PluginStore.ts:204-251 | enabling and disabling keep the invariant; an enabled plugin never carries a disable reason |
| StoreProperties.AddPluginPreservesValid | packages/lib-core/src/runtime/PluginStore.ts:279-308 | adding keeps the invariant: no name both loaded and failed, and the cached list correct even without a rebuild on first load |
| StoreProperties.RegisterFailedPreservesValid | packages/lib-core/src/runtime/PluginStore.ts:310-322 | recording a failure keeps the invariant, so no name is both loaded and failed |
| StoreProperties.HandleLoaderResultPreservesValid | packages/lib-core/src/runtime/PluginStore.ts:82-101 | handling any loader result keeps the invariant |
| StoreProperties.PluginInfoNames | packages/lib-core/src/runtime/PluginStore.ts:150-173 | `getPluginInfo` lists a name exactly when it is loaded or failed |
| StoreProperties.PluginInfoOnePerName | packages/lib-core/src/runtime/PluginStore.ts:150-173 | in a valid store `getPluginInfo` has one entry per name |
| StoreProperties.ExposedAfterAdd | packages/lib-core/src/runtime/PluginStore.ts:347-364 | after `addPlugin`, the plugin's modules come through the entry module just loaded |
| StoreProperties.ExposedAfterFailure | packages/lib-core/src/runtime/PluginStore.ts:347-352 | after a failure is recorded for a name, its modules are refused with the not-loaded error |
| StoreProperties.ExposedAgreesWithCodeRefs | packages/lib-core/src/runtime/PluginStore.ts:355-361 | given the same loader outcome for the module, `getExposedModule` and a code reference of the same plugin fail to load it together, with the same cause |
| StoreProperties.Apply | packages/lib-core/src/runtime/PluginStore.ts:75-107 | a second attach is refused and changes nothing. A disconnect unsubscribes its own loader and clears whichever loader is attached. A result reaches the store exactly while its loader's subscription is live. Attaching and detaching emit nothing |
| StoreProperties.RunPreservesValid | packages/lib-core/src/runtime/PluginStore.ts:42-55 | any sequence of calls from a valid, consistent session ends in one: the store invariant holds, and an attached loader is subscribed |
| StoreProperties.Reachable | packages/lib-core/src/runtime/PluginStore.ts:260-272 | after any calls on a new store: an attached loader is subscribed, no name is both loaded and failed, and `getExtensions` is the pure function of plugins and flags |
| StoreProperties.StaleDisconnect | packages/lib-core/src/runtime/PluginStore.ts:75-107 | attach L1, disconnect it, attach L2, disconnect L1 again: no loader is reported, yet L2 still delivers, and a third loader can be attached beside it |
| StoreProperties.SetPluginsEnabledIdempotent | packages/lib-core/src/runtime/PluginStore.ts:224-236 | repeating a call with the same arguments changes nothing and emits nothing |
| StoreProperties.EnableTwiceIsSilent | packages/lib-core/src/runtime/PluginStore.ts:239-244 | enabling the same names twice emits events only the first time |
| StoreProperties.SetFeatureFlagsIdempotent | packages/lib-core/src/runtime/PluginStore.ts:178-186 | merging the same patch twice changes nothing and emits nothing the second time |
| StoreProperties.FlagsAndEnablementCommute | packages/lib-core/src/runtime/PluginStore.ts:175-237 | merging flags and enabling or disabling plugins give the same store in either order |
| PluginStore.Uid | packages/lib-core/src/runtime/PluginStore.ts:339 | the uid `name[index]_hash`, with no contract of its own; `StoreProperties.UidInjective` states what it determines |
| StoreProperties.UidInjective | packages/lib-core/src/runtime/PluginStore.ts:339 | for one plugin name, a uid determines the extension's index and the build hash |
| StoreProperties.ReloadUidsDiffer | packages/lib-core/src/runtime/PluginStore.ts:281-291 | two loads of a plugin with different build hashes give different uids, even at the same index |
| StoreProperties.UidsDistinctWithinLoad | packages/lib-core/src/runtime/PluginStore.ts:334-340 | the extensions of one load have pairwise different uids |
| Listeners.NewRegistry | packages/lib-core/src/runtime/PluginStore.ts:63-65 | every event type starts with an empty listener set |
| Listeners.AddListener | packages/lib-core/src/runtime/PluginStore.ts:124 | `Set.add` adds exactly the listener, once: a listener not yet present goes at the end, after the others in their order, and one already present changes nothing |
| Listeners.RemoveListener | packages/lib-core/src/runtime/PluginStore.ts:134 | `Set.delete` removes exactly the listener, keeping the others |
| Listeners.RemoveAdded | packages/lib-core/src/runtime/PluginStore.ts:124-134 | deleting a listener just added to a set that lacked it gives the set back |
| Listeners.Subscribe | packages/lib-core/src/runtime/PluginStore.ts:117-126 | no event types: nothing changes and the returned function does nothing. Otherwise the listener joins exactly the listed types' sets |
| Listeners.Unsubscribe | packages/lib-core/src/runtime/PluginStore.ts:127-137 | the first call removes the listener from exactly its types' sets; later calls do nothing |
| Listeners.UnsubscribeTwice | packages/lib-core/src/runtime/PluginStore.ts:129-136 | calling the returned function a second time changes nothing |
| Listeners.SubscribeThenUnsubscribe | packages/lib-core/src/runtime/PluginStore.ts:117-137 | subscribing a new listener and then unsubscribing restores the registry |
| Listeners.Calls | packages/lib-core/src/runtime/PluginStore.ts:140-144 | emitting events calls exactly the listeners subscribed to some emitted event's type |
| Listeners.CalledOncePerEvent | packages/lib-core/src/runtime/PluginStore.ts:140-144 | a listener is called once per emitted event of a type it is subscribed to |
| Visitor.VisitDeep | packages/lib-core/src/runtime/coderefs.ts:105-123 | the `visitDeep` walk, with no contract of its own; `Visitor.VisitRewrites` and `Visitor.VisitEmits` state what it rewrites and collects |
| Visitor.MapDeep | packages/lib-core/src/runtime/coderefs.ts:146-160 | reference rewrite: constructors, lengths and keys are kept, and a scalar root is unchanged |
| Visitor.VisitRewrites | packages/lib-core/src/runtime/coderefs.ts:105-123 | the visit's in-place rewrite equals the reference rewrite, position by position |
| Visitor.VisitEmits | packages/lib-core/src/runtime/coderefs.ts:146-160 | what the visit collects is the callback's output for each visited value, in visit order |
| Visitor.MapDeepUntouched | packages/lib-core/src/runtime/coderefs.ts:146-160 | with nothing to visit, the rewrite leaves the tree unchanged |
| Visitor.NoneBelowNoMatches | packages/lib-core/src/runtime/coderefs.ts:146 | a tree with nothing accepted below its root offers nothing to visit |
| Visitor.MatchItemsFrom | packages/lib-core/src/runtime/coderefs.ts:146 | each visited value is an accepted child, or lies inside a child that is not accepted |
| CodeRefs.ParseEncodedCodeRef | packages/lib-core/src/runtime/coderefs.ts:43-56 | a parsed module name and export name are non-empty and contain no dots and no whitespace |
| CodeRefs.ParseModuleOnly | packages/lib-core/src/runtime/coderefs.ts:52-53 | a module name alone parses to its `default` export |
| CodeRefs.ParseModuleAndExport | packages/lib-core/src/runtime/coderefs.ts:46-55 | `m.e` parses to module `m` and export `e` whenever both are valid names |
| CodeRefs.ParseIsGrammar | packages/lib-core/src/runtime/coderefs.ts:43-56 | the parser returns a target exactly when the string derives it in the grammar `moduleName(.exportName)?` |
| CodeRefs.ParseRejects | packages/lib-core/src/runtime/coderefs.ts:46-50 | the empty string, any whitespace, two dots, and a leading or trailing dot are rejected |
| CodeRefs.IsCodeRef | packages/lib-core/src/runtime/coderefs.ts:33-36 | a code reference is the `Ref` case of the property tree, with no contract of its own. The symbol check is not modelled: every `Ref` value counts. `CodeRefs.DecodeCodeRefs` states that writing the created references back in wire form gives the input tree |
| CodeRefs.IsEncodedCodeRef | packages/lib-core/src/runtime/coderefs.ts:28-31 | holds exactly for a plain object whose only property is `$codeRef` with a string value |
| CodeRefs.GetPluginModule | packages/lib-core/src/runtime/coderefs.ts:58-69 | returns the module the entry module yields. Otherwise it fails with the loader's cause and a message ending "Failed to load module 'm'" plus the caller's suffix |
| CodeRefs.InvokeLoadsThroughPluginModule | packages/lib-core/src/runtime/coderefs.ts:80-96 | a well-formed reference loads its module through `getPluginModule`: its failure is the reference's error as is; on success the reference yields the export or reports it missing |
| CodeRefs.InvokeCodeRef | packages/lib-core/src/runtime/coderefs.ts:80-96 | malformed exactly when the string fits no grammar target; a load error exactly when the module fails; otherwise the export or a missing-export error. Every message ends " in extension <uid>" |
| CodeRefs.DecodeCodeRefs | packages/lib-core/src/runtime/coderefs.ts:104-126 | only the properties change, and no encoded reference is left below the root. Written back in wire form they give the input tree; every new reference is bound to the entry module and the uid |
| CodeRefs.DecodeKeepsNonEncoded | packages/lib-core/src/runtime/coderefs.ts:105 | decoding never makes an encoded reference out of a value that was not one |
| CodeRefs.DecodeRoundTrip | packages/lib-core/src/runtime/coderefs.ts:104-126 | for a tree without code references, decoding and then writing back in wire form gives the tree again |
| CodeRefs.MatchedRefsBound | packages/lib-core/src/runtime/coderefs.ts:106-110 | every reference in a decoded tree is bound to the entry module and the extension's uid |
| CodeRefs.FailingRefs | packages/lib-core/src/runtime/coderefs.ts:154-155 | the failing references are exactly those whose invocation fails, each listed as many times as leaves hold it |
| CodeRefs.FailsTwice | packages/lib-core/src/runtime/coderefs.ts:154-155 | a failing reference held by two leaves gives two causes |
| CodeRefs.FailuresOf | packages/lib-core/src/runtime/coderefs.ts:154-155 | one error per failing reference, the i-th being the i-th failing reference's error |
| CodeRefs.ResolveCodeRefValues | packages/lib-core/src/runtime/coderefs.ts:139-172 | fails exactly when some reference fails, with the input extension and one cause per failing reference. Otherwise: the extension with each reference replaced by its value, other fields unchanged |
| CodeRefs.SettleAll | packages/lib-core/src/runtime/coderefs.ts:146-162 | the settling visit rewrites like the reference rewrite and collects exactly the failures, in order |
| CodeRefs.EmittedFailures | packages/lib-core/src/runtime/coderefs.ts:154-158 | settling a run of references collects their errors in order |
| CodeRefs.ResolveWithoutCodeRefs | packages/lib-core/src/runtime/coderefs.ts:164-171 | an extension without code references resolves to itself |
| Scenarios.ResolvesToExport | packages/lib-core/src/runtime/coderefs.ts:80-96 | `{"$codeRef": "mod.Foo"}`, decoded and resolved against a module exporting `Foo = 42`, resolves to 42 |
| Scenarios.FailSoftAggregation | packages/lib-core/src/runtime/coderefs.ts:146-166 | one good and one malformed reference: exactly one cause, the malformed one. The good reference alone resolves |
| Scenarios.FlagGating | packages/lib-core/src/runtime/PluginStore.ts:253-258 | required `A`, disallowed `B`: in use with `A=true, B=false`; not with `B=true`; not with no flags |
| Scenarios.PluginLifecycle | packages/lib-core/src/runtime/PluginStore.ts:279-322 | add `p1` (nothing in use), enable it (its extension in use), fail it (listed as failed only, nothing in use) |

## Left out

- The loading itself (`loadPlugin`) and the subscription to the loader are asynchronous I/O through a loader that is not part of this model. Only the result handler is modelled. Results are delivered in whatever order the calls in `StoreProperties.Run` give.
- The random uuid for a manifest without a build hash is the `freshHash` parameter.
- Logging is left out. So is the error-message formatting beyond the suffixes the callers append.
- `postProcessExtensions` is the identity, which is the default.
- Several behaviours are not modelled: `Object.freeze`, the function `name` given to each code reference, and the symbol marking it. A code reference is a constructor of the property tree.
- `getFeatureFlags` is a copy of the flags, the `flags` field.
- The module factory and a factory that throws are folded into one loader function: it returns the module or a cause.
- StoreProperties.ExposedAgreesWithCodeRefs: the agreement rests on the loader function being pure. The source fetches through `entryModule.get` (`coderefs.ts:64`) once for `getExposedModule` (`PluginStore.ts:357-361`) and once more for each code reference (`coderefs.ts:89`), and promises nothing about two fetches agreeing. The model gives every fetch of one module from one entry module the same outcome, so the lemma holds given the same loader outcome.
- PluginStore.PickBooleans: lodash's `pickBy` writes through `baseSet`, which skips the keys `__proto__`, `constructor` and `prototype`. So `setFeatureFlags({constructor: true})` changes nothing in the source, while the model adds the flag. Lodash internals are not part of this model.
- Promise concurrency is modelled as a sequential visit:
  - each reference is settled, and all of them are settled before the outcome is decided;
  - causes are in visit order, where the source records them in the order the promises reject.
- Equality is structural. Lodash `isEqual` compares the code-reference functions in extensions by identity, so it can differ only when two distinct extension objects with equal contents meet in the before/after lists of a rebuild. That cannot happen:
  - uids tell apart the extensions of one plugin;
  - `pluginName` tells apart those of different plugins;
  - a reloaded plugin is stored disabled, so its old and new extensions are never in the list at the same time.
- A listener that subscribes or unsubscribes while listeners are being called is not modelled.
- PluginStore.AddPlugin, PluginStore.RegisterFailedPlugin: listeners run synchronously inside these transitions. On a reload, `PluginInfoChanged` listeners are called before `updateExtensions` (`PluginStore.ts:301-304`, `:315-318`). A listener that reads `getExtensions()` there sees the previous list, in a state where `Valid` does not yet hold. The model emits events only after the transition finishes, and it does not model a listener calling back into the store.
- StoreProperties.Apply: a loader id names one subscription. Attaching the same loader object twice, each time through its own subscription, is not told apart from attaching it once.
- PluginStore.ProcessExtensions: the source decodes in place. The spread at `PluginStore.ts:337` is shallow, so `decodeCodeRefs` writes code references into the manifest's own property objects (`coderefs.ts:122`). Delivering the same manifest object again then finds functions rather than `$codeRef` objects, and the new extensions keep the first load's references, bound to the old entry module and uid. The model decodes a fresh copy of the manifest's tree on every load.
- CodeRefs.InvokeCodeRef: the export check `_.has(module, exportName)` (`coderefs.ts:91`) reads a name with brackets, such as `a[0]`, as a lodash property path, while the lookup reads it as a plain key. The model tests for a plain key only. So for `mod.a[0]` against a module `{a: [5]}`, the source yields `undefined` and the model reports a missing export.
- Numbers in property trees are integers. Floating point is not modelled.
- Objects other than plain ones and arrays (functions, class instances) are opaque leaves.

=== FILE: coderefs.dfy ===
/** Code references: the `{"$codeRef": "module.export"}` wire shape inside extension
    properties, its decoding into lazily resolvable references when a plugin is loaded,
    and the resolution of every reference of an extension. */
module CodeRefs {
  import opened Wrappers
  import opened Types
  import Visitor

  /** The one property name of an encoded code reference. */
  const CodeRefKey: string := "$codeRef"

  /** The export used when an encoded reference names only a module. */
  const DefaultExport: string := "default"

  /** A character matched by `\s` in a JavaScript regular expression. */
  predicate IsWhitespace(c: char) {
    var n := c as int;
    || n == 0x09 || n == 0x0A || n == 0x0B || n == 0x0C || n == 0x0D || n == 0x20
    || n == 0xA0 || n == 0x1680 || (0x2000 <= n <= 0x200A) || n == 0x2028 || n == 0x2029
    || n == 0x202F || n == 0x205F || n == 0x3000 || n == 0xFEFF
  }

  /** A name matched by `[^.\s]+`: non-empty, without dots and without whitespace. */
  predicate IsSegment(s: string) {
    |s| > 0 && forall i :: 0 <= i < |s| ==> s[i] != '.' && !IsWhitespace(s[i])
  }

  /** The module and export an encoded reference points at. */
  datatype Target = Target(moduleName: string, exportName: string)

  /** The grammar `moduleName(.exportName)?` of the `$codeRef` string, with the
      export defaulting to `default`. */
  ghost predicate Derives(ref: string, t: Target) {
    || (IsSegment(ref) && t == Target(ref, DefaultExport))
    || (IsSegment(t.moduleName) && IsSegment(t.exportName) && ref == t.moduleName + "." + t.exportName)
  }

  /** Position of the first dot, or the length when there is none. */
  function FirstDot(s: string): (i: nat)
    ensures i <= |s|
    ensures forall j :: 0 <= j < i ==> s[j] != '.'
    ensures i < |s| ==> s[i] == '.'
  {
    if s == [] || s[0] == '.' then 0 else 1 + FirstDot(s[1..])
  }

  /** `parseEncodedCodeRef`: matches the string against `^([^.\s]+)(?:\.([^.\s]+))?$`. */
  function ParseEncodedCodeRef(ref: string): (r: Option<Target>)
    ensures r.Some? ==> IsSegment(r.value.moduleName) && IsSegment(r.value.exportName)
  {
    var i := FirstDot(ref);
    if i == |ref| then
      if IsSegment(ref) then
        assert IsSegment(DefaultExport) by {
          assert DefaultExport == ['d', 'e', 'f', 'a', 'u', 'l', 't'];
        }
        Some(Target(ref, DefaultExport))
      else None
    else if IsSegment(ref[..i]) && IsSegment(ref[i + 1..]) then Some(Target(ref[..i], ref[i + 1..]))
    else None
  }

  /** A module name alone parses to its `default` export. */
  lemma ParseModuleOnly(m: string)
    requires IsSegment(m)
    ensures ParseEncodedCodeRef(m) == Some(Target(m, DefaultExport))
  {
    assert FirstDot(m) == |m|;
  }

  /** `module.export` parses to that module and export. */
  lemma ParseModuleAndExport(m: string, e: string)
    requires IsSegment(m) && IsSegment(e)
    ensures ParseEncodedCodeRef(m + "." + e) == Some(Target(m, e))
  {
    var s := m + "." + e;
    FirstDotOfJoin(m, e);
    assert s[..|m|] == m;
    assert s[|m| + 1..] == e;
  }

  lemma {:induction false} FirstDotOfJoin(m: string, e: string)
    requires forall i :: 0 <= i < |m| ==> m[i] != '.'
    ensures FirstDot(m + "." + e) == |m|
  {
    if m != [] {
      assert (m + "." + e)[1..] == m[1..] + "." + e;
      FirstDotOfJoin(m[1..], e);
    }
  }

  /** The parser accepts exactly the strings of the grammar, with the target the
      grammar assigns them. */
  lemma ParseIsGrammar(ref: string, t: Target)
    ensures ParseEncodedCodeRef(ref) == Some(t) <==> Derives(ref, t)
  {
    if IsSegment(ref) {
      ParseModuleOnly(ref);
    }
    if IsSegment(t.moduleName) && IsSegment(t.exportName) && ref == t.moduleName + "." + t.exportName {
      ParseModuleAndExport(t.moduleName, t.exportName);
    }
    if ParseEncodedCodeRef(ref) == Some(t) && !IsSegment(ref) {
      var i := FirstDot(ref);
      assert ref == ref[..i] + "." + ref[i + 1..];
    }
  }

  /** The strings the parser turns away: the empty string, any whitespace, a second
      dot, and an empty name on either side of a dot. */
  lemma ParseRejects(ref: string)
    ensures ref == "" ==> ParseEncodedCodeRef(ref).None?
    ensures (exists i :: 0 <= i < |ref| && IsWhitespace(ref[i])) ==> ParseEncodedCodeRef(ref).None?
    ensures (exists i, j :: 0 <= i < j < |ref| && ref[i] == '.' && ref[j] == '.') ==> ParseEncodedCodeRef(ref).None?
    ensures |ref| > 0 && (ref[0] == '.' || ref[|ref| - 1] == '.') ==> ParseEncodedCodeRef(ref).None?
  {
    var r := ParseEncodedCodeRef(ref);
    if r.Some? {
      var t := r.value;
      ParseIsGrammar(ref, t);
      if !IsSegment(ref) {
        var m, e := t.moduleName, t.exportName;
        assert ref == m + "." + e;
        forall i | 0 <= i < |ref| ensures !IsWhitespace(ref[i]) && (ref[i] == '.' <==> i == |m|) {
          if i < |m| { assert ref[i] == m[i]; }
          else if i > |m| { assert ref[i] == e[i - |m| - 1]; }
        }
      }
    }
  }

  /** `isEncodedCodeRef`: a plain object whose only property is `$codeRef`, holding a
      string. */
  function IsEncodedCodeRef(v: Value): (r: bool)
    ensures r ==> v.Obj? && |v.fields| == 1 && v.fields[0].value.Str? &&
                  v == Obj([Field(CodeRefKey, Str(v.fields[0].value.s))])
    ensures forall s :: v == Obj([Field(CodeRefKey, Str(s))]) ==> r
  {
    v.Obj? && |v.fields| == 1 && v.fields[0].key == CodeRefKey && v.fields[0].value.Str?
  }

  /** `isCodeRef`: a decoded code reference, told apart by its constructor. */
  predicate IsCodeRef(v: Value) {
    v.Ref?
  }

  /** The errors invoking a code reference can raise. */
  datatype CodeRefError =
    | MalformedCodeRef(message: string)
    | ModuleLoadError(message: string, cause: Cause)
    | MissingExport(message: string)

  predicate EndsWith(s: string, suffix: string) {
    |suffix| <= |s| && s[|s| - |suffix|..] == suffix
  }

  /** `getPluginModule`: fetches a module through the entry module. Any failure
      becomes an error naming the module, followed by `suffix` (the caller's message
      formatter appends it; the default formatter appends nothing). */
  function GetPluginModule(moduleName: string, entry: EntryModule, suffix: string, modules: ModuleLoader): (r: Result<Module, CodeRefError>)
    ensures r.Success? <==> modules(entry, moduleName).Success?
    ensures r.Success? ==> r.value == modules(entry, moduleName).value
    ensures r.Failure? ==> r.error.ModuleLoadError? && r.error.cause == modules(entry, moduleName).error
    ensures r.Failure? ==> EndsWith(r.error.message, "Failed to load module '" + moduleName + "'" + suffix)
  {
    match modules(entry, moduleName)
    case Success(m) => Success(m)
    case Failure(cause) =>
      var message := "Failed to load module '" + moduleName + "'" + suffix;
      assert message[|message| - |message|..] == message;
      Failure(ModuleLoadError(message, cause))
  }

  /** The message formatter `decodeCodeRefs` gives each reference. */
  function InExtension(uid: string): string {
    " in extension " + uid
  }

  /** Invoking a code reference (the body of the closure `createCodeRef` returns). */
  function InvokeCodeRef(c: CodeRef, modules: ModuleLoader): (r: Result<Value, CodeRefError>)
    ensures r.Failure? ==> EndsWith(r.error.message, InExtension(c.uid))
    ensures (r.Failure? && r.error.MalformedCodeRef?) <==> forall t :: !Derives(c.encoded, t)
    ensures forall t :: Derives(c.encoded, t) ==>
              ((r.Failure? && r.error.ModuleLoadError?) <==> modules(c.entry, t.moduleName).Failure?)
    ensures forall t :: Derives(c.encoded, t) && modules(c.entry, t.moduleName).Success? ==>
              var m := modules(c.entry, t.moduleName).value;
              if t.exportName in m then r == Success(m[t.exportName]) else r.Failure? && r.error.MissingExport?
  {
    var suffix := InExtension(c.uid);
    forall t ensures ParseEncodedCodeRef(c.encoded) == Some(t) <==> Derives(c.encoded, t) {
      ParseIsGrammar(c.encoded, t);
    }
    match ParseEncodedCodeRef(c.encoded)
    case None =>
      var message := "Malformed code reference '" + c.encoded + "'" + suffix;
      assert message[|message| - |suffix|..] == suffix;
      Failure(MalformedCodeRef(message))
    case Some(t) =>
      match GetPluginModule(t.moduleName, c.entry, suffix, modules)
      case Failure(e) =>
        var whole := "Failed to load module '" + t.moduleName + "'" + suffix;
        assert whole[|whole| - |suffix|..] == suffix;
        assert e.message[|e.message| - |suffix|..] == whole[|whole| - |suffix|..];
        Failure(e)
      case Success(m) =>
        if t.exportName in m then Success(m[t.exportName])
        else
          var message := "Missing module export '" + t.moduleName + "." + t.exportName + "'" + suffix;
          assert message[|message| - |suffix|..] == suffix;
          Failure(MissingExport(message))
  }

  /** A well-formed reference loads its module through `getPluginModule`: when that
      fails, invoking the reference fails with the very same error; when it succeeds,
      the reference yields the export or reports it missing. */
  lemma InvokeLoadsThroughPluginModule(c: CodeRef, modules: ModuleLoader, t: Target)
    requires Derives(c.encoded, t)
    ensures var g := GetPluginModule(t.moduleName, c.entry, InExtension(c.uid), modules);
            var r := InvokeCodeRef(c, modules);
            && (g.Failure? ==> r == Failure(g.error))
            && (g.Success? ==> r.Success? || r.error.MissingExport?)
  {
    ParseIsGrammar(c.encoded, t);
  }

  /** The code reference `decodeCodeRefs` puts in place of an encoded one. */
  function ToCodeRef(v: Value, entry: EntryModule, uid: string): Value {
    if IsEncodedCodeRef(v) then Ref(CodeRef(v.fields[0].value.s, entry, uid)) else v
  }

  function ToCodeRefFn(entry: EntryModule, uid: string): Value -> Value {
    v => ToCodeRef(v, entry, uid)
  }

  /** The callback `decodeCodeRefs` passes to the visit; it reports nothing. */
  function DecodeCallback(entry: EntryModule, uid: string): Value -> (Value, seq<()>) {
    v => (ToCodeRef(v, entry, uid), [])
  }

  /** The wire form of a code reference: the inverse of decoding one. */
  function WireForm(v: Value): Value {
    if v.Ref? then Obj([Field(CodeRefKey, Str(v.ref.encoded))]) else v
  }

  /** Every code reference in a tree written back in its wire form. */
  function EncodeCodeRefs(v: Value): Value {
    if v.Ref? then WireForm(v) else Visitor.MapDeep(v, IsCodeRef, WireForm)
  }

  /** A tree without decoded code references anywhere, as parsed from a manifest. */
  ghost predicate NoCodeRefs(v: Value) {
    !v.Ref? && Visitor.NoneBelow(v, IsCodeRef)
  }

  /** `decodeCodeRefs`: replaces every encoded code reference below the properties root
      by a code reference bound to the entry module and to the extension's uid. The
      result holds no encoded reference below the root any more, every other field is unchanged, and
      writing the references back in wire form gives the manifest's tree again. */
  function DecodeCodeRefs(ext: LoadedExtension, entry: EntryModule): (r: LoadedExtension)
    ensures r == ext.(properties := r.properties)
    ensures Visitor.NoneBelow(r.properties, IsEncodedCodeRef)
    ensures NoCodeRefs(ext.properties) ==> EncodeCodeRefs(r.properties) == ext.properties
    ensures NoCodeRefs(ext.properties) ==>
              forall c :: c in CodeRefsIn(r.properties) ==> c.entry == entry && c.uid == ext.uid
  {
    var (props, _) := Visitor.VisitDeep(ext.properties, IsEncodedCodeRef, DecodeCallback(entry, ext.uid));
    Visitor.VisitRewrites(ext.properties, IsEncodedCodeRef, DecodeCallback(entry, ext.uid), ToCodeRefFn(entry, ext.uid));
    DecodedHasNoEncoded(ext.properties, entry, ext.uid);
    DecodeRoundTripWhenPlain(ext.properties, entry, ext.uid);
    DecodedRefsBound(ext.properties, entry, ext.uid);
    ext.(properties := props)
  }

  /** Rewriting can only turn a value into an encoded reference if it was one. */
  lemma DecodeKeepsNonEncoded(x: Value, entry: EntryModule, uid: string)
    requires !IsEncodedCodeRef(x)
    ensures !IsEncodedCodeRef(Visitor.MapDeep(x, IsEncodedCodeRef, ToCodeRefFn(entry, uid)))
  {
    var d := Visitor.MapDeep(x, IsEncodedCodeRef, ToCodeRefFn(entry, uid));
    if x.Obj? && |x.fields| == 1 && x.fields[0].key == CodeRefKey {
      var y := x.fields[0].value;
      assert d.fields == Visitor.MapFields(x.fields, IsEncodedCodeRef, ToCodeRefFn(entry, uid));
      assert d.fields[0].value == if IsEncodedCodeRef(y) then ToCodeRef(y, entry, uid)
                                  else Visitor.MapDeep(y, IsEncodedCodeRef, ToCodeRefFn(entry, uid));
    }
  }

  lemma {:induction false} DecodedHasNoEncoded(v: Value, entry: EntryModule, uid: string)
    ensures Visitor.NoneBelow(Visitor.MapDeep(v, IsEncodedCodeRef, ToCodeRefFn(entry, uid)), IsEncodedCodeRef)
    decreases v
  {
    var g := ToCodeRefFn(entry, uid);
    match v
    case Arr(items) =>
      var out := Visitor.MapItems(items, IsEncodedCodeRef, g);
      forall i | 0 <= i < |items|
        ensures !IsEncodedCodeRef(out[i]) && Visitor.NoneBelow(out[i], IsEncodedCodeRef)
      {
        if !IsEncodedCodeRef(items[i]) {
          DecodeKeepsNonEncoded(items[i], entry, uid);
          DecodedHasNoEncoded(items[i], entry, uid);
        }
      }
    case Obj(fields) =>
      var out := Visitor.MapFields(fields, IsEncodedCodeRef, g);
      forall i | 0 <= i < |fields|
        ensures !IsEncodedCodeRef(out[i].value) && Visitor.NoneBelow(out[i].value, IsEncodedCodeRef)
      {
        if !IsEncodedCodeRef(fields[i].value) {
          DecodeKeepsNonEncoded(fields[i].value, entry, uid);
          DecodedHasNoEncoded(fields[i].value, entry, uid);
        }
      }
    case _ =>
  }

  lemma {:induction false} DecodeRoundTrip(v: Value, entry: EntryModule, uid: string)
    requires NoCodeRefs(v)
    ensures EncodeCodeRefs(Visitor.MapDeep(v, IsEncodedCodeRef, ToCodeRefFn(entry, uid))) == v
    decreases v, 0
  {
    var g := ToCodeRefFn(entry, uid);
    match v
    case Arr(items) =>
      var inner := Visitor.MapItems(items, IsEncodedCodeRef, g);
      var outer := Visitor.MapItems(inner, IsCodeRef, WireForm);
      Visitor.MapItemsAt(items, IsEncodedCodeRef, g);
      Visitor.MapItemsAt(inner, IsCodeRef, WireForm);
      forall i | 0 <= i < |items| ensures outer[i] == items[i] {
        ChildRoundTrip(items[i], entry, uid);
      }
      assert outer == items;
    case Obj(fields) =>
      var inner := Visitor.MapFields(fields, IsEncodedCodeRef, g);
      var outer := Visitor.MapFields(inner, IsCodeRef, WireForm);
      Visitor.MapFieldsAt(fields, IsEncodedCodeRef, g);
      Visitor.MapFieldsAt(inner, IsCodeRef, WireForm);
      forall i | 0 <= i < |fields| ensures outer[i] == fields[i] {
        ChildRoundTrip(fields[i].value, entry, uid);
      }
      assert outer == fields;
    case _ =>
  }

  /** One child of the round trip: decoding it and writing it back gives it again. */
  lemma {:induction false} ChildRoundTrip(c: Value, entry: EntryModule, uid: string)
    requires NoCodeRefs(c)
    ensures Visitor.MapChild(Visitor.MapChild(c, IsEncodedCodeRef, ToCodeRefFn(entry, uid)), IsCodeRef, WireForm) == c
    decreases c, 1
  {
    if !IsEncodedCodeRef(c) {
      DecodeRoundTrip(c, entry, uid);
    }
  }

  lemma DecodeRoundTripWhenPlain(v: Value, entry: EntryModule, uid: string)
    ensures NoCodeRefs(v) ==> EncodeCodeRefs(Visitor.MapDeep(v, IsEncodedCodeRef, ToCodeRefFn(entry, uid))) == v
  {
    if NoCodeRefs(v) {
      DecodeRoundTrip(v, entry, uid);
    }
  }

  /** The code references below the root of a tree, in visit order. */
  function CodeRefsIn(v: Value): (refs: seq<CodeRef>)
    ensures |refs| == |Visitor.Matches(v, IsCodeRef)|
  {
    RefsOf(Visitor.Matches(v, IsCodeRef))
  }

  /** The references a sequence of decoded code references holds. */
  function RefsOf(cs: seq<Value>): (refs: seq<CodeRef>)
    requires forall i :: 0 <= i < |cs| ==> cs[i].Ref?
    ensures |refs| == |cs|
    ensures forall i :: 0 <= i < |cs| ==> refs[i] == cs[i].ref
  {
    seq(|cs|, i requires 0 <= i < |cs| && IsCodeRef(cs[i]) => cs[i].ref)
  }

  lemma DecodedRefsBound(v: Value, entry: EntryModule, uid: string)
    ensures NoCodeRefs(v) ==>
              forall c :: c in CodeRefsIn(Visitor.MapDeep(v, IsEncodedCodeRef, ToCodeRefFn(entry, uid))) ==>
                c.entry == entry && c.uid == uid
  {
    var d := Visitor.MapDeep(v, IsEncodedCodeRef, ToCodeRefFn(entry, uid));
    if NoCodeRefs(v) {
      forall c | c in CodeRefsIn(d) ensures c.entry == entry && c.uid == uid {
        var i :| 0 <= i < |CodeRefsIn(d)| && CodeRefsIn(d)[i] == c;
        MatchedRefsBound(v, entry, uid, Visitor.Matches(d, IsCodeRef)[i]);
      }
    }
  }

  /** Every code reference below a decoded tree that had none to begin with was made
      by the decoding, and so is bound to its entry module and uid. */
  lemma {:induction false} MatchedRefsBound(v: Value, entry: EntryModule, uid: string, x: Value)
    requires NoCodeRefs(v)
    requires x in Visitor.Matches(Visitor.MapDeep(v, IsEncodedCodeRef, ToCodeRefFn(entry, uid)), IsCodeRef)
    ensures x.Ref? && x.ref.entry == entry && x.ref.uid == uid
    decreases v
  {
    var g := ToCodeRefFn(entry, uid);
    match v
    case Arr(items) =>
      var out := Visitor.MapItems(items, IsEncodedCodeRef, g);
      Visitor.MatchItemsFrom(out, IsCodeRef, x);
      var i :| 0 <= i < |out| &&
        ((IsCodeRef(out[i]) && x == out[i]) || (!IsCodeRef(out[i]) && x in Visitor.Matches(out[i], IsCodeRef)));
      if !IsEncodedCodeRef(items[i]) {
        MatchedRefsBound(items[i], entry, uid, x);
      }
    case Obj(fields) =>
      var out := Visitor.MapFields(fields, IsEncodedCodeRef, g);
      Visitor.MatchFieldsFrom(out, IsCodeRef, x);
      var i :| 0 <= i < |out| &&
        ((IsCodeRef(out[i].value) && x == out[i].value) || (!IsCodeRef(out[i].value) && x in Visitor.Matches(out[i].value, IsCodeRef)));
      if !IsEncodedCodeRef(fields[i].value) {
        MatchedRefsBound(fields[i].value, entry, uid, x);
      }
  }

  /** What a code reference below the root becomes once settled: the export on
      success, `undefined` (the marker the source writes) on failure. */
  function ResolvedValue(v: Value, modules: ModuleLoader): Value {
    if v.Ref? then
      match InvokeCodeRef(v.ref, modules)
      case Success(x) => x
      case Failure(_) => Undefined
    else v
  }

  function ResolvedValueFn(modules: ModuleLoader): Value -> Value {
    v => ResolvedValue(v, modules)
  }

  /** The error settling a code reference records, if any. */
  function SettleErrors(v: Value, modules: ModuleLoader): seq<CodeRefError> {
    if v.Ref? && InvokeCodeRef(v.ref, modules).Failure? then [InvokeCodeRef(v.ref, modules).error] else []
  }

  /** The callback `resolveCodeRefValues` passes to the visit: settles one reference
      and reports the error it records. */
  function ResolveCallback(modules: ModuleLoader): Value -> (Value, seq<CodeRefError>) {
    v => (ResolvedValue(v, modules), SettleErrors(v, modules))
  }

  /** The references among `refs` whose invocation fails, in order. */
  function FailingRefs(refs: seq<CodeRef>, modules: ModuleLoader): (r: seq<CodeRef>)
    ensures forall c :: c in r <==> c in refs && InvokeCodeRef(c, modules).Failure?
    ensures |r| <= |refs|
    ensures forall c :: multiset(r)[c] == if InvokeCodeRef(c, modules).Failure? then multiset(refs)[c] else 0
  {
    if refs == [] then []
    else
      assert refs == [refs[0]] + refs[1..];
      assert forall c :: c in refs <==> c == refs[0] || c in refs[1..];
      assert multiset(refs) == multiset([refs[0]]) + multiset(refs[1..]);
      (if InvokeCodeRef(refs[0], modules).Failure? then [refs[0]] else []) + FailingRefs(refs[1..], modules)
  }

  /** A failing reference held by two leaves gives two errors, one per leaf. */
  lemma FailsTwice(c: CodeRef, modules: ModuleLoader)
    requires InvokeCodeRef(c, modules).Failure?
    ensures FailuresOf([c, c], modules) == [InvokeCodeRef(c, modules).error, InvokeCodeRef(c, modules).error]
  {
    assert multiset(FailingRefs([c, c], modules))[c] == 2;
  }

  /** The errors of `refs`, one per failing reference: the i-th error is the one the
      i-th failing reference raises. */
  function FailuresOf(refs: seq<CodeRef>, modules: ModuleLoader): (r: seq<CodeRefError>)
    ensures |r| == |FailingRefs(refs, modules)|
    ensures forall i :: 0 <= i < |r| ==> InvokeCodeRef(FailingRefs(refs, modules)[i], modules) == Failure(r[i])
  {
    if refs == [] then []
    else
      var rest := FailuresOf(refs[1..], modules);
      var outcome := InvokeCodeRef(refs[0], modules);
      if outcome.Failure? then
        assert FailingRefs(refs, modules) == [refs[0]] + FailingRefs(refs[1..], modules);
        [outcome.error] + rest
      else
        assert FailingRefs(refs, modules) == FailingRefs(refs[1..], modules);
        rest
  }

  /** The error of an extension whose references did not all resolve. */
  datatype ResolutionError = ResolutionError(extension: LoadedExtension, causes: seq<CodeRefError>)

  /** `resolveCodeRefValues`: settles every code reference of the extension. If any
      fails, the result is one error carrying the extension and one cause per failing
      reference; otherwise it is the extension with each reference replaced by the value
      it resolves to and every other field as before. The argument itself is a value and
      stays as it is. */
  function ResolveCodeRefValues(ext: LoadedExtension, modules: ModuleLoader): (r: Result<LoadedExtension, ResolutionError>)
    ensures r.Failure? <==> exists c :: c in CodeRefsIn(ext.properties) && InvokeCodeRef(c, modules).Failure?
    ensures r.Failure? ==> r.error == ResolutionError(ext, FailuresOf(CodeRefsIn(ext.properties), modules))
    ensures r.Success? ==>
              r.value == ext.(properties := Visitor.MapDeep(ext.properties, IsCodeRef, ResolvedValueFn(modules)))
  {
    var (props, errors) := Visitor.VisitDeep(ext.properties, IsCodeRef, ResolveCallback(modules));
    SettleAll(ext.properties, modules);
    NoFailuresIff(CodeRefsIn(ext.properties), modules);
    if |errors| > 0 then Failure(ResolutionError(ext, errors))
    else Success(ext.(properties := props))
  }

  /** The visit `resolveCodeRefValues` performs, stated through the reference
      definitions: it rewrites like `MapDeep` and collects the failures in order. */
  lemma SettleAll(v: Value, modules: ModuleLoader)
    ensures Visitor.VisitDeep(v, IsCodeRef, ResolveCallback(modules)).0 ==
            Visitor.MapDeep(v, IsCodeRef, ResolvedValueFn(modules))
    ensures Visitor.VisitDeep(v, IsCodeRef, ResolveCallback(modules)).1 == FailuresOf(CodeRefsIn(v), modules)
  {
    Visitor.VisitRewrites(v, IsCodeRef, ResolveCallback(modules), ResolvedValueFn(modules));
    Visitor.VisitEmits(v, IsCodeRef, ResolveCallback(modules));
    EmittedFailures(Visitor.Matches(v, IsCodeRef), modules);
  }

  /** There are no failures exactly when no reference fails. */
  lemma NoFailuresIff(refs: seq<CodeRef>, modules: ModuleLoader)
    ensures |FailuresOf(refs, modules)| > 0 <==> exists c :: c in refs && InvokeCodeRef(c, modules).Failure?
  {
    var failing := FailingRefs(refs, modules);
    if |failing| > 0 {
      assert failing[0] in failing;
    }
  }

  /** What the visit collects from settling references is their failures, in order. */
  lemma {:induction false} EmittedFailures(cs: seq<Value>, modules: ModuleLoader)
    requires forall i :: 0 <= i < |cs| ==> cs[i].Ref?
    ensures Visitor.Emitted(cs, ResolveCallback(modules)) == FailuresOf(RefsOf(cs), modules)
  {
    if cs != [] {
      var refs := RefsOf(cs);
      EmittedFailures(cs[1..], modules);
      assert refs[1..] == RefsOf(cs[1..]);
      assert refs[0] == cs[0].ref;
      assert ResolveCallback(modules)(cs[0]).1 == SettleErrors(cs[0], modules);
      FailuresOfCons(refs, modules);
    }
  }

  /** The first step of `FailuresOf`. */
  lemma FailuresOfCons(refs: seq<CodeRef>, modules: ModuleLoader)
    requires refs != []
    ensures FailuresOf(refs, modules) ==
            (if InvokeCodeRef(refs[0], modules).Failure? then [InvokeCodeRef(refs[0], modules).error] else [])
            + FailuresOf(refs[1..], modules)
  {
  }

  /** An extension without code references resolves to itself. */
  lemma ResolveWithoutCodeRefs(ext: LoadedExtension, modules: ModuleLoader)
    requires CodeRefsIn(ext.properties) == []
    ensures ResolveCodeRefValues(ext, modules) == Success(ext)
  {
    Visitor.MapDeepUntouched(ext.properties, IsCodeRef, ResolvedValueFn(modules));
  }
}

=== FILE: listeners.dfy ===
/** The store's listener registry: for each event type, the listeners subscribed to
    it, as a set in insertion order (a listener added twice is held once). Emitting an
    event calls that type's listeners in order. */
module Listeners {
  import opened Types

  /** Identity of a listener function. */
  datatype ListenerId = ListenerId(id: nat)

  /** The constructor sets up a set for every event type, so each type always has one. */
  datatype Registry = Registry(
    pluginInfo: seq<ListenerId>,
    extensions: seq<ListenerId>,
    featureFlags: seq<ListenerId>)
  {
    /** The listeners of one event type. */
    function Of(t: Event): seq<ListenerId> {
      match t
      case PluginInfoChanged => pluginInfo
      case ExtensionsChanged => extensions
      case FeatureFlagsChanged => featureFlags
    }

    /** The registry with the listeners of one event type replaced. */
    function With(t: Event, ls: seq<ListenerId>): (r: Registry)
      ensures r.Of(t) == ls
      ensures forall u :: u != t ==> r.Of(u) == Of(u)
    {
      match t
      case PluginInfoChanged => this.(pluginInfo := ls)
      case ExtensionsChanged => this.(extensions := ls)
      case FeatureFlagsChanged => this.(featureFlags := ls)
    }
  }

  /** The registry the constructor sets up. */
  function NewRegistry(): (r: Registry)
    ensures forall t :: r.Of(t) == []
  {
    Registry([], [], [])
  }

  /** No listener appears twice. */
  ghost predicate Distinct(ls: seq<ListenerId>) {
    forall i, j :: 0 <= i < j < |ls| ==> ls[i] != ls[j]
  }

  ghost predicate WellFormed(reg: Registry) {
    forall t :: Distinct(reg.Of(t))
  }

  /** `Set.add`: appends a listener not yet present. */
  function AddListener(ls: seq<ListenerId>, l: ListenerId): (r: seq<ListenerId>)
    ensures forall x :: x in r <==> x in ls || x == l
    ensures Distinct(ls) ==> Distinct(r)
    ensures l in ls ==> r == ls
    ensures l !in ls ==> r == ls + [l]
  {
    if l in ls then ls else ls + [l]
  }

  /** `Set.delete`: removes the listener, keeping the others in order. */
  function RemoveListener(ls: seq<ListenerId>, l: ListenerId): (r: seq<ListenerId>)
    ensures forall x :: x in r <==> x in ls && x != l
    ensures Distinct(ls) ==> Distinct(r)
    ensures l !in ls ==> r == ls
    ensures |r| <= |ls|
  {
    if ls == [] then []
    else
      assert forall x :: x in ls <==> x == ls[0] || x in ls[1..] by {
        assert ls == [ls[0]] + ls[1..];
      }
      var rest := RemoveListener(ls[1..], l);
      assert Distinct(ls) ==> Distinct(ls[1..]) && ls[0] !in rest by {
        if Distinct(ls) {
          forall i | 0 <= i < |ls[1..]| ensures ls[1..][i] != ls[0] {
            assert ls[1..][i] == ls[i + 1];
          }
        }
      }
      (if ls[0] == l then [] else [ls[0]]) + rest
  }

  /** Removing a listener just added to a set that did not hold it gives the set back. */
  lemma {:induction false} RemoveAdded(ls: seq<ListenerId>, l: ListenerId)
    requires l !in ls
    ensures RemoveListener(AddListener(ls, l), l) == ls
  {
    if ls == [] {
      assert AddListener(ls, l) == [l];
      assert RemoveListener([l], l) == [] + RemoveListener([], l);
    } else {
      RemoveAdded(ls[1..], l);
      RemoveAddedStep(ls, l);
    }
  }

  /** One step of `RemoveAdded`: the head survives and the tail is handled recursively. */
  lemma RemoveAddedStep(ls: seq<ListenerId>, l: ListenerId)
    requires ls != [] && l !in ls
    requires RemoveListener(AddListener(ls[1..], l), l) == ls[1..]
    ensures RemoveListener(AddListener(ls, l), l) == ls
  {
    var added := AddListener(ls, l);
    assert added == [ls[0]] + AddListener(ls[1..], l);
    assert added[0] == ls[0] && added[1..] == AddListener(ls[1..], l);
    assert ls[0] != l;
    assert RemoveListener(added, l) == [ls[0]] + RemoveListener(added[1..], l);
    assert ls == [ls[0]] + ls[1..];
  }

  /** Adds `l` to the set of every listed type. */
  function AddAll(reg: Registry, types: seq<Event>, l: ListenerId): (r: Registry)
    ensures forall t :: r.Of(t) == if t in types then AddListener(reg.Of(t), l) else reg.Of(t)
    decreases |types|
  {
    if types == [] then reg
    else
      var t := types[0];
      var next := reg.With(t, AddListener(reg.Of(t), l));
      assert types == [t] + types[1..];
      var r := AddAll(next, types[1..], l);
      assert forall u :: AddListener(AddListener(reg.Of(u), l), l) == AddListener(reg.Of(u), l);
      r
  }

  /** Removes `l` from the set of every listed type. */
  function RemoveAll(reg: Registry, types: seq<Event>, l: ListenerId): (r: Registry)
    ensures forall t :: r.Of(t) == if t in types then RemoveListener(reg.Of(t), l) else reg.Of(t)
    decreases |types|
  {
    if types == [] then reg
    else
      var t := types[0];
      var next := reg.With(t, RemoveListener(reg.Of(t), l));
      assert types == [t] + types[1..];
      var r := RemoveAll(next, types[1..], l);
      assert forall u :: RemoveListener(RemoveListener(reg.Of(u), l), l) == RemoveListener(reg.Of(u), l);
      r
  }

  /** The function `subscribe` returns, with whether it will still do something. */
  datatype Subscription = Subscription(eventTypes: seq<Event>, listener: ListenerId, active: bool)

  /** `subscribe`: with no event types it changes nothing and returns a function that
      does nothing; otherwise it adds the listener for each listed type. */
  function Subscribe(reg: Registry, types: seq<Event>, l: ListenerId): (r: (Registry, Subscription))
    ensures types == [] ==> r.0 == reg && !r.1.active
    ensures forall t, x :: x in r.0.Of(t) <==> x in reg.Of(t) || (x == l && t in types)
    ensures WellFormed(reg) ==> WellFormed(r.0)
  {
    if types == [] then (reg, Subscription([], l, false))
    else (AddAll(reg, types, l), Subscription(types, l, true))
  }

  /** Calling the function `subscribe` returned: the first call removes the listener
      from each of its types; later calls do nothing. */
  function Unsubscribe(reg: Registry, sub: Subscription): (r: (Registry, Subscription))
    ensures !r.1.active
    ensures !sub.active ==> r.0 == reg
    ensures sub.active ==> forall t, x :: x in r.0.Of(t) <==> x in reg.Of(t) && !(x == sub.listener && t in sub.eventTypes)
    ensures WellFormed(reg) ==> WellFormed(r.0)
  {
    if sub.active then (RemoveAll(reg, sub.eventTypes, sub.listener), sub.(active := false))
    else (reg, sub)
  }

  /** A second unsubscribe changes nothing. */
  lemma UnsubscribeTwice(reg: Registry, sub: Subscription)
    ensures var (reg1, sub1) := Unsubscribe(reg, sub);
            Unsubscribe(reg1, sub1) == (reg1, sub1)
  {
  }

  /** Subscribing a listener not yet registered anywhere and then unsubscribing gives
      the registry back. */
  lemma SubscribeThenUnsubscribe(reg: Registry, types: seq<Event>, l: ListenerId)
    requires forall t :: l !in reg.Of(t)
    ensures var (reg1, sub) := Subscribe(reg, types, l);
            Unsubscribe(reg1, sub).0 == reg
  {
    var (reg1, sub) := Subscribe(reg, types, l);
    if types != [] {
      var reg2 := Unsubscribe(reg1, sub).0;
      forall t ensures reg2.Of(t) == reg.Of(t) {
        if t in types {
          RemoveAdded(reg.Of(t), l);
        }
      }
      assert reg2.pluginInfo == reg2.Of(PluginInfoChanged);
      assert reg2.extensions == reg2.Of(ExtensionsChanged);
      assert reg2.featureFlags == reg2.Of(FeatureFlagsChanged);
    }
  }

  /** `invokeListeners` for each event in turn: the listeners called, in order. */
  function Calls(reg: Registry, events: seq<Event>): (r: seq<ListenerId>)
    ensures forall x :: x in r <==> exists i :: 0 <= i < |events| && x in reg.Of(events[i])
  {
    if events == [] then []
    else
      var rest := Calls(reg, events[1..]);
      assert forall x :: x in rest <==> exists i :: 1 <= i < |events| && x in reg.Of(events[i]) by {
        forall x | x in rest ensures exists i :: 1 <= i < |events| && x in reg.Of(events[i]) {
          var i :| 0 <= i < |events[1..]| && x in reg.Of(events[1..][i]);
          assert events[i + 1] == events[1..][i];
        }
        forall x | exists i :: 1 <= i < |events| && x in reg.Of(events[i]) ensures x in rest {
          var i :| 1 <= i < |events| && x in reg.Of(events[i]);
          assert events[1..][i - 1] == events[i];
        }
      }
      reg.Of(events[0]) + rest
  }

  /** How many of the events have `l` among their type's listeners. */
  function Occurrences(reg: Registry, events: seq<Event>, l: ListenerId): nat {
    if events == [] then 0
    else (if l in reg.Of(events[0]) then 1 else 0) + Occurrences(reg, events[1..], l)
  }

  /** A listener appears at most once in a set. */
  lemma {:induction false} CountInDistinct(ls: seq<ListenerId>, l: ListenerId)
    requires Distinct(ls)
    ensures multiset(ls)[l] == if l in ls then 1 else 0
  {
    if ls != [] {
      assert ls == [ls[0]] + ls[1..];
      assert Distinct(ls[1..]) by {
        forall i, j | 0 <= i < j < |ls[1..]| ensures ls[1..][i] != ls[1..][j] {
          assert ls[1..][i] == ls[i + 1] && ls[1..][j] == ls[j + 1];
        }
      }
      CountInDistinct(ls[1..], l);
      if ls[0] == l {
        assert l !in ls[1..] by {
          forall i | 0 <= i < |ls[1..]| ensures ls[1..][i] != l {
            assert ls[1..][i] == ls[i + 1];
          }
        }
      }
    }
  }

  /** In a well-formed registry a listener is called once per emitted event of a type
      it is subscribed to. */
  lemma {:induction false} CalledOncePerEvent(reg: Registry, events: seq<Event>, l: ListenerId)
    requires WellFormed(reg)
    ensures multiset(Calls(reg, events))[l] == Occurrences(reg, events, l)
  {
    if events != [] {
      CalledOncePerEvent(reg, events[1..], l);
      CountInDistinct(reg.Of(events[0]), l);
    }
  }
}

=== FILE: ordered_maps.dfy ===
/** A JavaScript `Map`: entries in insertion order, one per key. Setting a key that is
    already present replaces its value in place; deleting a key and setting it again
    moves it to the end. */
module OrderedMaps {
  import opened Wrappers

  datatype Entry<V> = Entry(key: string, value: V)

  type OrderedMap<V> = seq<Entry<V>>

  /** The keys in iteration order (`map.keys()`). */
  function Keys<V>(m: OrderedMap<V>): (ks: seq<string>)
    ensures |ks| == |m|
    ensures forall i :: 0 <= i < |m| ==> ks[i] == m[i].key
  {
    seq(|m|, i requires 0 <= i < |m| => m[i].key)
  }

  /** The values in iteration order (`map.values()`). */
  function Values<V>(m: OrderedMap<V>): (vs: seq<V>)
    ensures |vs| == |m|
    ensures forall i :: 0 <= i < |m| ==> vs[i] == m[i].value
  {
    seq(|m|, i requires 0 <= i < |m| => m[i].value)
  }

  /** The representation invariant of a `Map`: no key occurs twice. */
  ghost predicate UniqueKeys<V>(m: OrderedMap<V>) {
    forall i, j :: 0 <= i < j < |m| ==> m[i].key != m[j].key
  }

  /** `map.has(k)`. */
  predicate Has<V>(m: OrderedMap<V>, k: string) {
    exists i :: 0 <= i < |m| && m[i].key == k
  }

  /** The position of the first entry with key `k`. */
  function IndexOf<V>(m: OrderedMap<V>, k: string): (i: nat)
    requires Has(m, k)
    ensures i < |m| && m[i].key == k
    ensures forall j :: 0 <= j < i ==> m[j].key != k
  {
    if m[0].key == k then 0
    else
      assert exists i :: 0 <= i < |m[1..]| && m[1..][i].key == k by {
        var i :| 0 <= i < |m| && m[i].key == k;
        assert m[1..][i - 1].key == k;
      }
      1 + IndexOf(m[1..], k)
  }

  /** `map.get(k)`. */
  function Get<V>(m: OrderedMap<V>, k: string): (r: Option<V>)
    ensures r.Some? <==> Has(m, k)
    ensures r.Some? ==> r.value == m[IndexOf(m, k)].value
  {
    if Has(m, k) then Some(m[IndexOf(m, k)].value) else None
  }

  /** `map.set(k, v)`: scans for the key and replaces its value in place, or appends a new
      entry at the end when the key is absent. */
  function Set<V>(m: OrderedMap<V>, k: string, v: V): (r: OrderedMap<V>)
    ensures Has(m, k) ==> r == m[IndexOf(m, k) := Entry(k, v)]
    ensures !Has(m, k) ==> r == m + [Entry(k, v)]
  {
    if m == [] then [Entry(k, v)]
    else if m[0].key == k then [Entry(k, v)] + m[1..]
    else
      var rest := Set(m[1..], k, v);
      assert Has(m[1..], k) <==> Has(m, k) by {
        if Has(m, k) {
          var i :| 0 <= i < |m| && m[i].key == k;
          assert m[1..][i - 1].key == k;
        }
        if Has(m[1..], k) {
          var i :| 0 <= i < |m[1..]| && m[1..][i].key == k;
          assert m[i + 1].key == k;
        }
      }
      [m[0]] + rest
  }

  /** `map.delete(k)`: drops the entry with key `k`, keeping the order of the others. */
  function Delete<V>(m: OrderedMap<V>, k: string): (r: OrderedMap<V>)
    ensures forall x :: Has(r, x) <==> x != k && Has(m, x)
    ensures !Has(m, k) ==> r == m
    ensures UniqueKeys(m) ==> UniqueKeys(r)
    ensures UniqueKeys(m) && Has(m, k) ==> r == m[..IndexOf(m, k)] + m[IndexOf(m, k) + 1..]
  {
    if m == [] then []
    else
      var rest := Delete(m[1..], k);
      DeleteStep(m, k, rest);
      if m[0].key == k then rest else [m[0]] + rest
  }

  /** One step of `Delete`: what holds of the tail carries over to the whole map. */
  lemma DeleteStep<V>(m: OrderedMap<V>, k: string, rest: OrderedMap<V>)
    requires m != []
    requires forall x :: Has(rest, x) <==> x != k && Has(m[1..], x)
    requires !Has(m[1..], k) ==> rest == m[1..]
    requires UniqueKeys(m[1..]) ==> UniqueKeys(rest)
    requires UniqueKeys(m[1..]) && Has(m[1..], k) ==>
               rest == m[1..][..IndexOf(m[1..], k)] + m[1..][IndexOf(m[1..], k) + 1..]
    ensures var r := if m[0].key == k then rest else [m[0]] + rest;
            && (forall x :: Has(r, x) <==> x != k && Has(m, x))
            && (!Has(m, k) ==> r == m)
            && (UniqueKeys(m) ==> UniqueKeys(r))
            && (UniqueKeys(m) && Has(m, k) ==> r == m[..IndexOf(m, k)] + m[IndexOf(m, k) + 1..])
  {
    HasTail(m);
    assert m == [m[0]] + m[1..];
    if UniqueKeys(m) {
      HeadNotInTail(m);
    }
    if m[0].key != k {
      DeleteKeepHead(m, k, rest);
    }
  }

  /** In a map without duplicates the first key does not occur again. */
  lemma HeadNotInTail<V>(m: OrderedMap<V>)
    requires m != [] && UniqueKeys(m)
    ensures !Has(m[1..], m[0].key)
    ensures UniqueKeys(m[1..])
  {
    forall i | 0 <= i < |m[1..]| ensures m[1..][i].key != m[0].key {
      assert m[1..][i] == m[i + 1];
    }
    forall i, j | 0 <= i < j < |m[1..]| ensures m[1..][i].key != m[1..][j].key {
      assert m[1..][i] == m[i + 1] && m[1..][j] == m[j + 1];
    }
  }

  /** The step of `Delete` that keeps the first entry. */
  lemma DeleteKeepHead<V>(m: OrderedMap<V>, k: string, rest: OrderedMap<V>)
    requires m != [] && m[0].key != k
    requires forall x :: Has(rest, x) <==> x != k && Has(m[1..], x)
    requires UniqueKeys(m[1..]) ==> UniqueKeys(rest)
    requires UniqueKeys(m[1..]) && Has(m[1..], k) ==>
               rest == m[1..][..IndexOf(m[1..], k)] + m[1..][IndexOf(m[1..], k) + 1..]
    ensures forall x :: Has([m[0]] + rest, x) <==> x != k && Has(m, x)
    ensures UniqueKeys(m) ==> UniqueKeys([m[0]] + rest)
    ensures UniqueKeys(m) && Has(m, k) ==> [m[0]] + rest == m[..IndexOf(m, k)] + m[IndexOf(m, k) + 1..]
  {
    HasTail(m);
    var r := [m[0]] + rest;
    forall x ensures Has(r, x) <==> x != k && Has(m, x) {
      HasCons(m[0], rest, x);
    }
    if UniqueKeys(m) {
      HeadNotInTail(m);
      UniqueCons(m[0], rest);
      if Has(m, k) {
        DeleteSlices(m, k);
      }
    }
  }

  lemma DeleteSlices<V>(m: OrderedMap<V>, k: string)
    requires m != [] && m[0].key != k && Has(m[1..], k)
    ensures Has(m, k)
    ensures var n := IndexOf(m[1..], k);
            [m[0]] + (m[1..][..n] + m[1..][n + 1..]) == m[..IndexOf(m, k)] + m[IndexOf(m, k) + 1..]
  {
    var n := IndexOf(m[1..], k);
    assert m[1..][n] == m[n + 1];
    assert IndexOf(m, k) == 1 + n;
    var t := m[1..];
    var a, b := t[..n], t[n + 1..];
    assert [m[0]] + (a + b) == ([m[0]] + a) + b;
    assert m[..n + 1] == [m[0]] + a;
    assert m[n + 2..] == b;
  }

  lemma UniqueCons<V>(e: Entry<V>, m: OrderedMap<V>)
    requires UniqueKeys(m) && !Has(m, e.key)
    ensures UniqueKeys([e] + m)
  {
    var r := [e] + m;
    forall i, j | 0 <= i < j < |r| ensures r[i].key != r[j].key {
      assert r[j] == m[j - 1];
      if i > 0 {
        assert r[i] == m[i - 1];
      }
    }
  }

  /** Keys of a map whose first entry is split off. */
  lemma HasTail<V>(m: OrderedMap<V>)
    requires m != []
    ensures forall x :: Has(m, x) <==> x == m[0].key || Has(m[1..], x)
  {
    forall x ensures Has(m, x) <==> x == m[0].key || Has(m[1..], x) {
      assert m == [m[0]] + m[1..];
      HasCons(m[0], m[1..], x);
    }
  }

  lemma HasCons<V>(e: Entry<V>, m: OrderedMap<V>, x: string)
    ensures Has([e] + m, x) <==> x == e.key || Has(m, x)
  {
    var r := [e] + m;
    assert r[0].key == e.key;
    if Has(m, x) {
      var i :| 0 <= i < |m| && m[i].key == x;
      assert r[i + 1].key == x;
    }
    if Has(r, x) && x != e.key {
      var i :| 0 <= i < |r| && r[i].key == x;
      assert m[i - 1].key == x;
    }
  }

  /** Setting a key adds exactly that key, keeps the map free of duplicates, and
      leaves the existing keys where they were. */
  lemma SetKeys<V>(m: OrderedMap<V>, k: string, v: V)
    ensures forall x :: Has(Set(m, k, v), x) <==> x == k || Has(m, x)
    ensures UniqueKeys(m) ==> UniqueKeys(Set(m, k, v))
    ensures Keys(m) <= Keys(Set(m, k, v))
  {
    if Has(m, k) {
      SetInPlace(m, k, v);
    } else {
      SetAppended(m, k, v);
    }
  }

  lemma SetInPlace<V>(m: OrderedMap<V>, k: string, v: V)
    requires Has(m, k)
    ensures forall x :: Has(Set(m, k, v), x) <==> x == k || Has(m, x)
    ensures UniqueKeys(m) ==> UniqueKeys(Set(m, k, v))
    ensures Keys(m) <= Keys(Set(m, k, v))
  {
    var r := Set(m, k, v);
    var i := IndexOf(m, k);
    assert r == m[i := Entry(k, v)];
    assert forall j :: 0 <= j < |r| ==> r[j].key == m[j].key;
    forall x ensures Has(r, x) <==> Has(m, x) {
      if Has(m, x) {
        var j :| 0 <= j < |m| && m[j].key == x;
        assert r[j].key == x;
      }
      if Has(r, x) {
        var j :| 0 <= j < |r| && r[j].key == x;
        assert m[j].key == x;
      }
    }
    assert Keys(r) == Keys(m);
  }

  lemma SetAppended<V>(m: OrderedMap<V>, k: string, v: V)
    requires !Has(m, k)
    ensures forall x :: Has(Set(m, k, v), x) <==> x == k || Has(m, x)
    ensures UniqueKeys(m) ==> UniqueKeys(Set(m, k, v))
    ensures Keys(m) <= Keys(Set(m, k, v))
  {
    var e := Entry(k, v);
    assert Set(m, k, v) == m + [e];
    forall x ensures Has(m + [e], x) <==> x == k || Has(m, x) {
      HasSnoc(m, e, x);
    }
    if UniqueKeys(m) {
      UniqueSnoc(m, e);
    }
    assert Keys(m) == Keys(m + [e])[..|m|];
  }

  lemma HasSnoc<V>(m: OrderedMap<V>, e: Entry<V>, x: string)
    ensures Has(m + [e], x) <==> x == e.key || Has(m, x)
  {
    var r := m + [e];
    assert r[|m|] == e;
    if Has(m, x) {
      var j :| 0 <= j < |m| && m[j].key == x;
      assert r[j] == m[j];
    }
    if Has(r, x) && x != e.key {
      var j :| 0 <= j < |r| && r[j].key == x;
      assert j < |m| && m[j] == r[j];
    }
  }

  lemma UniqueSnoc<V>(m: OrderedMap<V>, e: Entry<V>)
    requires UniqueKeys(m) && !Has(m, e.key)
    ensures UniqueKeys(m + [e])
  {
    var r := m + [e];
    forall i, j | 0 <= i < j < |r| ensures r[i].key != r[j].key {
      assert r[i] == m[i];
      if j < |m| {
        assert r[j] == m[j];
      }
    }
  }

  /** After setting `k`, the first entry with key `k` carries the new value. */
  lemma SetFound<V>(m: OrderedMap<V>, k: string, v: V)
    ensures Has(Set(m, k, v), k)
    ensures Set(m, k, v)[IndexOf(Set(m, k, v), k)] == Entry(k, v)
  {
    var r := Set(m, k, v);
    if Has(m, k) {
      var i := IndexOf(m, k);
      assert r[i] == Entry(k, v);
    } else {
      assert r[|m|] == Entry(k, v);
    }
  }

  /** Two maps with the same keys at the same positions have the same keys. */
  lemma SameKeys<V>(a: OrderedMap<V>, b: OrderedMap<V>)
    requires |a| == |b| && forall i :: 0 <= i < |a| ==> a[i].key == b[i].key
    ensures forall k :: Has(a, k) <==> Has(b, k)
    ensures forall k :: Has(a, k) ==> IndexOf(a, k) == IndexOf(b, k)
  {
    forall k ensures Has(a, k) <==> Has(b, k) {
      if Has(a, k) {
        var i :| 0 <= i < |a| && a[i].key == k;
        assert b[i].key == k;
      }
      if Has(b, k) {
        var i :| 0 <= i < |b| && b[i].key == k;
        assert a[i].key == k;
      }
    }
    forall k | Has(a, k) ensures IndexOf(a, k) == IndexOf(b, k) {
      var i, j := IndexOf(a, k), IndexOf(b, k);
      assert b[i].key == k && a[j].key == k;
    }
  }

  /** In a map without duplicates, the entry at a position is the one its key finds. */
  lemma IndexOfUnique<V>(m: OrderedMap<V>, j: nat)
    requires UniqueKeys(m) && j < |m|
    ensures Has(m, m[j].key) && IndexOf(m, m[j].key) == j
  {
  }

  /** `get` after `set`: the key just set finds the new value, every other key what
      it found before. */
  lemma GetSet<V>(m: OrderedMap<V>, k: string, v: V, x: string)
    ensures Get(Set(m, k, v), x) == if x == k then Some(v) else Get(m, x)
  {
    var r := Set(m, k, v);
    if x == k {
      SetFound(m, k, v);
    } else {
      SetKeys(m, k, v);
      if Has(m, x) {
        if Has(m, k) {
          assert r == m[IndexOf(m, k) := Entry(k, v)];
          SameKeys(m, r);
        } else {
          IndexOfPrefix(m, [Entry(k, v)], x);
        }
      }
    }
  }

  /** A key present in a map is found at the same place once more entries follow it. */
  lemma IndexOfPrefix<V>(m: OrderedMap<V>, tail: OrderedMap<V>, x: string)
    requires Has(m, x)
    ensures Has(m + tail, x) && IndexOf(m + tail, x) == IndexOf(m, x)
  {
    var i := IndexOf(m, x);
    assert (m + tail)[i] == m[i];
    var t := IndexOf(m + tail, x);
    assert t <= i;
    assert (m + tail)[t] == m[t];
  }

  /** `get` after `delete`: the deleted key finds nothing, every other key what it
      found before. */
  lemma GetDelete<V>(m: OrderedMap<V>, k: string, x: string)
    requires UniqueKeys(m)
    ensures Get(Delete(m, k), x) == if x == k then None else Get(m, x)
  {
    var r := Delete(m, k);
    if x != k && Has(m, k) && Has(m, x) {
      var p, i := IndexOf(m, k), IndexOf(m, x);
      assert r == m[..p] + m[p + 1..];
      var j := if i < p then i else i - 1;
      assert r[j] == m[i];
      IndexOfUnique(r, j);
    }
  }
}

=== FILE: plugin_store.dfy ===
/** The plugin store: the loaded and failed plugins, which of them are enabled, the
    feature flags, and the cached list of extensions in use. Every transition is a pure
    function from a store to the next store and the events it emits, in order; a
    listener subscribed to an event type is called once per occurrence. */
module PluginStore {
  import opened Wrappers
  import opened Types
  import opened OrderedMaps
  import CodeRefs
  import Visitor

  /** `PluginRuntimeMetadata`: the manifest fields the store keeps. */
  datatype PluginMetadata = PluginMetadata(name: string, version: string, dependencies: Option<map<string, string>>)

  /** `PluginManifest`. */
  datatype Manifest = Manifest(
    name: string,
    version: string,
    dependencies: Option<map<string, string>>,
    buildHash: Option<string>,
    extensions: seq<Extension>)

  /** `LoadedPlugin`: only `enabled` and `disableReason` ever change. */
  datatype LoadedPlugin = LoadedPlugin(
    metadata: PluginMetadata,
    extensions: seq<LoadedExtension>,
    entry: EntryModule,
    enabled: bool,
    disableReason: Option<string>)

  /** `FailedPlugin`. */
  datatype FailedPlugin = FailedPlugin(errorMessage: string, errorCause: Option<Cause>)

  /** The feature flags: only boolean values are ever stored. */
  type FeatureFlags = map<string, bool>

  /** Opaque identity of a plugin loader. */
  datatype LoaderId = LoaderId(id: nat)

  /** `PluginStoreOptions`; post-processing of extensions is the identity. */
  datatype StoreOptions = StoreOptions(autoEnableLoadedPlugins: Option<bool>)

  datatype Store = Store(
    autoEnable: bool,
    loader: Option<LoaderId>,
    loaded: OrderedMap<LoadedPlugin>,
    failed: OrderedMap<FailedPlugin>,
    extensions: seq<LoadedExtension>,
    flags: FeatureFlags)

  /** A transition's outcome: the next store and the events emitted, in order. */
  datatype Step = Step(store: Store, events: seq<Event>)

  datatype StoreError =
    | LoaderAlreadySet(message: string)
    | PluginNotLoaded(message: string)
    | ModuleUnavailable(error: CodeRefs.CodeRefError)

  /** A loader's report of one load attempt. */
  datatype LoaderResult =
    | LoadSucceeded(pluginName: string, manifest: Manifest, entry: EntryModule)
    | LoadFailed(failedName: Option<string>, errorMessage: string, errorCause: Option<Cause>)

  /** One entry of `getPluginInfo`. */
  datatype PluginInfoEntry =
    | LoadedInfo(pluginName: string, metadata: PluginMetadata, enabled: bool, disableReason: Option<string>)
    | FailedInfo(pluginName: string, errorMessage: string, errorCause: Option<Cause>)

  /** The constructor: no plugins, no flags, no loader; plugins are enabled on load
      unless the options say otherwise. */
  function NewStore(options: StoreOptions): (s: Store)
    ensures options.autoEnableLoadedPlugins.None? ==> s.autoEnable
    ensures options.autoEnableLoadedPlugins.Some? ==> s.autoEnable == options.autoEnableLoadedPlugins.value
    ensures s.loader.None? && s.loaded == [] && s.failed == [] && s.extensions == [] && s.flags == map[]
  {
    Store(options.autoEnableLoadedPlugins.GetOr(true), None, [], [], [], map[])
  }

  // ---------------------------------------------------------------------------
  // Loader attachment

  /** `hasLoader`. */
  predicate HasLoader(s: Store) {
    s.loader.Some?
  }

  /** `setLoader`: refuses a second loader; otherwise attaches this one and changes
      nothing else. */
  function SetLoader(s: Store, loader: LoaderId): (r: Result<Store, StoreError>)
    ensures r.Failure? <==> HasLoader(s)
    ensures r.Failure? ==> r.error == LoaderAlreadySet("PluginLoader is already set")
    ensures r.Success? ==> HasLoader(r.value) && r.value.loader == Some(loader)
    ensures r.Success? ==> r.value == s.(loader := r.value.loader)
  {
    if s.loader.Some? then Failure(LoaderAlreadySet("PluginLoader is already set"))
    else Success(s.(loader := Some(loader)))
  }

  /** The function `setLoader` returns: after it no loader is attached, whichever was. */
  function Disconnect(s: Store): (r: Store)
    ensures !HasLoader(r)
    ensures r == s.(loader := r.loader)
  {
    s.(loader := None)
  }

  // ---------------------------------------------------------------------------
  // Which extensions are in use

  /** Every flag in `names` is present in `flags` with value `want`. */
  function AllMapTo(names: seq<string>, flags: FeatureFlags, want: bool): (r: bool)
    ensures r <==> forall i :: 0 <= i < |names| ==> names[i] in flags && flags[names[i]] == want
  {
    if names == [] then true
    else names[0] in flags && flags[names[0]] == want && AllMapTo(names[1..], flags, want)
  }

  /** A flag list of an extension is met: a missing list is met; a present one needs
      every flag in it to be present with value `want`. */
  ghost predicate Satisfied(list: Option<seq<string>>, flags: FeatureFlags, want: bool) {
    list.Some? ==> forall f :: f in list.value ==> f in flags && flags[f] == want
  }

  /** `isExtensionInUse`: all required flags are exactly `true` and all disallowed
      flags are exactly `false`; a flag absent from the map meets neither. */
  function IsExtensionInUse(e: LoadedExtension, flags: FeatureFlags): (r: bool)
    ensures e.flags.None? ==> r
    ensures e.flags.Some? ==>
              (r <==> Satisfied(e.flags.value.required, flags, true) && Satisfied(e.flags.value.disallowed, flags, false))
  {
    && (e.flags.None? || e.flags.value.required.None? || AllMapTo(e.flags.value.required.value, flags, true))
    && (e.flags.None? || e.flags.value.disallowed.None? || AllMapTo(e.flags.value.disallowed.value, flags, false))
  }

  /** `xs` is `ys` with some elements left out, the rest kept in order. */
  ghost predicate Subsequence<T>(xs: seq<T>, ys: seq<T>)
    decreases |ys|
  {
    if xs == [] then true
    else if ys == [] then false
    else (xs[0] == ys[0] && Subsequence(xs[1..], ys[1..])) || Subsequence(xs, ys[1..])
  }

  /** `extensions.filter(isExtensionInUse)`. */
  function FilterInUse(exts: seq<LoadedExtension>, flags: FeatureFlags): (r: seq<LoadedExtension>)
    ensures forall e :: e in r <==> e in exts && IsExtensionInUse(e, flags)
    ensures Subsequence(r, exts)
    ensures |r| <= |exts|
  {
    if exts == [] then []
    else
      assert forall e :: e in exts <==> e == exts[0] || e in exts[1..] by {
        assert exts == [exts[0]] + exts[1..];
      }
      var rest := FilterInUse(exts[1..], flags);
      if IsExtensionInUse(exts[0], flags) then
        assert ([exts[0]] + rest)[1..] == rest;
        [exts[0]] + rest
      else
        assert [] + rest == rest;
        [] + rest
  }

  /** What one plugin contributes to the list in use. */
  function Contribution(p: LoadedPlugin, flags: FeatureFlags): seq<LoadedExtension> {
    if p.enabled then FilterInUse(p.extensions, flags) else []
  }

  /** The `reduce` in `updateExtensions`: a left fold over the plugins. */
  function ReduceInUse(acc: seq<LoadedExtension>, plugins: seq<LoadedPlugin>, flags: FeatureFlags): seq<LoadedExtension>
    decreases |plugins|
  {
    if plugins == [] then acc
    else ReduceInUse(if plugins[0].enabled then acc + FilterInUse(plugins[0].extensions, flags) else acc, plugins[1..], flags)
  }

  /** Reference definition of the extensions in use: the in-use extensions of each
      enabled plugin, concatenated in plugin order. */
  function ConcatInUse(plugins: seq<LoadedPlugin>, flags: FeatureFlags): seq<LoadedExtension> {
    if plugins == [] then [] else Contribution(plugins[0], flags) + ConcatInUse(plugins[1..], flags)
  }

  /** The fold computes the reference concatenation. */
  lemma {:induction false} ReduceIsConcat(acc: seq<LoadedExtension>, plugins: seq<LoadedPlugin>, flags: FeatureFlags)
    ensures ReduceInUse(acc, plugins, flags) == acc + ConcatInUse(plugins, flags)
    decreases |plugins|
  {
    if plugins == [] {
      assert acc + [] == acc;
    } else {
      var c := Contribution(plugins[0], flags);
      var rest := ConcatInUse(plugins[1..], flags);
      ReduceStep(acc, plugins, flags);
      ReduceIsConcat(acc + c, plugins[1..], flags);
      assert (acc + c) + rest == acc + (c + rest);
    }
  }

  /** One step of the fold appends the first plugin's contribution to the accumulator. */
  lemma ReduceStep(acc: seq<LoadedExtension>, plugins: seq<LoadedPlugin>, flags: FeatureFlags)
    requires plugins != []
    ensures ReduceInUse(acc, plugins, flags) == ReduceInUse(acc + Contribution(plugins[0], flags), plugins[1..], flags)
  {
    if !plugins[0].enabled {
      assert acc + Contribution(plugins[0], flags) == acc;
    }
  }

  /** `updateExtensions`: rebuilds the list in use from scratch and reports
      `ExtensionsChanged` exactly when it differs from the previous list. */
  function UpdateExtensions(s: Store): (r: Step)
    ensures r.store == s.(extensions := r.store.extensions)
    ensures r.store.extensions == ConcatInUse(Values(s.loaded), s.flags)
    ensures r.events == if r.store.extensions == s.extensions then [] else [ExtensionsChanged]
  {
    var next := ReduceInUse([], Values(s.loaded), s.flags);
    ReduceIsConcat([], Values(s.loaded), s.flags);
    assert [] + ConcatInUse(Values(s.loaded), s.flags) == ConcatInUse(Values(s.loaded), s.flags);
    Step(s.(extensions := next), if next != s.extensions then [ExtensionsChanged] else [])
  }

  /** `getExtensions`: the cached list, which in every valid store is the list the
      reference definition gives. */
  function GetExtensions(s: Store): (r: seq<LoadedExtension>)
    ensures Valid(s) ==> r == ConcatInUse(Values(s.loaded), s.flags)
  {
    s.extensions
  }

  // ---------------------------------------------------------------------------
  // Feature flags

  /** `pickBy(newFlags, isBoolean)`. */
  function PickBooleans(patch: map<string, Value>): (r: FeatureFlags)
    ensures forall k :: k in r <==> k in patch && patch[k].Bool?
    ensures forall k :: k in r ==> patch[k] == Bool(r[k])
  {
    map k | k in patch && patch[k].Bool? :: patch[k].b
  }

  /** `{...featureFlags, ...pickBy(newFlags, isBoolean)}`. */
  function MergeFlags(flags: FeatureFlags, patch: map<string, Value>): (r: FeatureFlags)
    ensures forall k :: k in r <==> k in flags || (k in patch && patch[k].Bool?)
    ensures forall k :: k in patch && patch[k].Bool? ==> r[k] == patch[k].b
    ensures forall k :: k in flags && !(k in patch && patch[k].Bool?) ==> r[k] == flags[k]
  {
    flags + PickBooleans(patch)
  }

  /** `setFeatureFlags`: merges the boolean entries of the patch. Only when the flags
      differ by value afterwards is the list in use rebuilt, and then
      `FeatureFlagsChanged` follows whatever the rebuild emitted. */
  function SetFeatureFlags(s: Store, patch: map<string, Value>): (r: Step)
    ensures r.store.flags == MergeFlags(s.flags, patch)
    ensures r.store == s.(flags := r.store.flags, extensions := r.store.extensions)
    ensures (FeatureFlagsChanged in r.events) <==> r.store.flags != s.flags
    ensures r.store.flags == s.flags ==> r == Step(s, [])
    ensures r.store.flags != s.flags ==>
              && r.store.extensions == ConcatInUse(Values(s.loaded), r.store.flags)
              && r.events == (if r.store.extensions == s.extensions then [] else [ExtensionsChanged]) + [FeatureFlagsChanged]
  {
    var merged := MergeFlags(s.flags, patch);
    if merged == s.flags then Step(s, [])
    else
      var u := UpdateExtensions(s.(flags := merged));
      Step(u.store, u.events + [FeatureFlagsChanged])
  }

  // ---------------------------------------------------------------------------
  // Enabling and disabling

  /** A loaded entry that a call for `names` with `enabled` flips. */
  predicate Flips(e: Entry<LoadedPlugin>, names: seq<string>, enabled: bool) {
    e.key in names && e.value.enabled != enabled
  }

  /** What a call for `names` makes of one loaded entry's plugin. */
  function Flipped(e: Entry<LoadedPlugin>, names: seq<string>, enabled: bool, reason: Option<string>): LoadedPlugin {
    if Flips(e, names, enabled) then e.value.(enabled := enabled, disableReason := reason) else e.value
  }

  /** The `forEach` in `setPluginsEnabled`: visits the names in order, skips those not
      loaded, and flips `enabled` (setting the disable reason to `reason`) on each
      loaded plugin whose flag differs. Returns the new plugins and whether anything
      flipped. In a map without duplicate keys, this is entry by entry the same as
      flipping every listed plugin whose flag differs. */
  function FlipPlugins(loaded: OrderedMap<LoadedPlugin>, names: seq<string>, enabled: bool, reason: Option<string>)
    : (r: (OrderedMap<LoadedPlugin>, bool))
    ensures UniqueKeys(loaded) ==> |r.0| == |loaded| && UniqueKeys(r.0)
    ensures UniqueKeys(loaded) ==> forall i :: 0 <= i < |loaded| ==>
              r.0[i] == Entry(loaded[i].key, Flipped(loaded[i], names, enabled, reason))
    ensures UniqueKeys(loaded) ==> (r.1 <==> exists i :: 0 <= i < |loaded| && Flips(loaded[i], names, enabled))
    decreases |names|
  {
    if names == [] then (loaded, false)
    else
      var name := names[0];
      match Get(loaded, name)
      case None =>
        var r := FlipPlugins(loaded, names[1..], enabled, reason);
        FlipSkipped(loaded, names, enabled, reason, r);
        r
      case Some(p) =>
        if p.enabled != enabled then
          var next := Set(loaded, name, p.(enabled := enabled, disableReason := reason));
          SetKeys(loaded, name, p.(enabled := enabled, disableReason := reason));
          var r := FlipPlugins(next, names[1..], enabled, reason);
          FlipApplied(loaded, names, enabled, reason, IndexOf(loaded, name), next, r);
          (r.0, true)
        else
          var r := FlipPlugins(loaded, names[1..], enabled, reason);
          FlipSkipped(loaded, names, enabled, reason, r);
          r
  }

  /** The step of `FlipPlugins` in which the first name changes nothing. */
  lemma FlipSkipped(loaded: OrderedMap<LoadedPlugin>, names: seq<string>, enabled: bool, reason: Option<string>,
                    r: (OrderedMap<LoadedPlugin>, bool))
    requires names != []
    requires Has(loaded, names[0]) ==> loaded[IndexOf(loaded, names[0])].value.enabled == enabled
    requires UniqueKeys(loaded) ==> |r.0| == |loaded| && UniqueKeys(r.0)
    requires UniqueKeys(loaded) ==> forall i :: 0 <= i < |loaded| ==>
               r.0[i] == Entry(loaded[i].key, Flipped(loaded[i], names[1..], enabled, reason))
    requires UniqueKeys(loaded) ==> (r.1 <==> exists i :: 0 <= i < |loaded| && Flips(loaded[i], names[1..], enabled))
    ensures UniqueKeys(loaded) ==> forall i :: 0 <= i < |loaded| ==>
              r.0[i] == Entry(loaded[i].key, Flipped(loaded[i], names, enabled, reason))
    ensures UniqueKeys(loaded) ==> (r.1 <==> exists i :: 0 <= i < |loaded| && Flips(loaded[i], names, enabled))
  {
    if UniqueKeys(loaded) {
      forall i | 0 <= i < |loaded| ensures Flips(loaded[i], names, enabled) == Flips(loaded[i], names[1..], enabled) {
        FlipSkippedAt(loaded, names, enabled, i);
      }
    }
  }

  /** One entry of `FlipSkipped`. */
  lemma FlipSkippedAt(loaded: OrderedMap<LoadedPlugin>, names: seq<string>, enabled: bool, i: nat)
    requires names != [] && UniqueKeys(loaded) && i < |loaded|
    requires Has(loaded, names[0]) ==> loaded[IndexOf(loaded, names[0])].value.enabled == enabled
    ensures Flips(loaded[i], names, enabled) == Flips(loaded[i], names[1..], enabled)
  {
    assert names == [names[0]] + names[1..];
    if loaded[i].key == names[0] {
      assert Has(loaded, names[0]);
      assert IndexOf(loaded, names[0]) == i;
    }
  }

  /** The step of `FlipPlugins` in which the first name flips its plugin, the one at `j`. */
  lemma FlipApplied(loaded: OrderedMap<LoadedPlugin>, names: seq<string>, enabled: bool, reason: Option<string>,
                    j: nat, next: OrderedMap<LoadedPlugin>, r: (OrderedMap<LoadedPlugin>, bool))
    requires names != [] && j < |loaded| && loaded[j].key == names[0] && loaded[j].value.enabled != enabled
    requires next == loaded[j := Entry(names[0], loaded[j].value.(enabled := enabled, disableReason := reason))]
    requires UniqueKeys(loaded) ==> UniqueKeys(next)
    requires UniqueKeys(next) ==> |r.0| == |next| && UniqueKeys(r.0)
    requires UniqueKeys(next) ==> forall i :: 0 <= i < |next| ==>
               r.0[i] == Entry(next[i].key, Flipped(next[i], names[1..], enabled, reason))
    ensures UniqueKeys(loaded) ==> |r.0| == |loaded| && UniqueKeys(r.0)
    ensures UniqueKeys(loaded) ==> forall i :: 0 <= i < |loaded| ==>
              r.0[i] == Entry(loaded[i].key, Flipped(loaded[i], names, enabled, reason))
    ensures Flips(loaded[j], names, enabled)
  {
    assert names == [names[0]] + names[1..];
    if UniqueKeys(loaded) {
      forall i | 0 <= i < |loaded|
        ensures r.0[i] == Entry(loaded[i].key, Flipped(loaded[i], names, enabled, reason))
      {
        FlipAppliedAt(loaded, names, enabled, reason, j, next, i);
      }
    }
  }

  /** One entry of `FlipApplied`. */
  lemma FlipAppliedAt(loaded: OrderedMap<LoadedPlugin>, names: seq<string>, enabled: bool, reason: Option<string>,
                      j: nat, next: OrderedMap<LoadedPlugin>, i: nat)
    requires names != [] && j < |loaded| && loaded[j].key == names[0] && loaded[j].value.enabled != enabled
    requires next == loaded[j := Entry(names[0], loaded[j].value.(enabled := enabled, disableReason := reason))]
    requires UniqueKeys(loaded) && i < |loaded|
    ensures Entry(next[i].key, Flipped(next[i], names[1..], enabled, reason))
            == Entry(loaded[i].key, Flipped(loaded[i], names, enabled, reason))
  {
    assert names == [names[0]] + names[1..];
    if i != j {
      assert loaded[i].key != names[0];
    }
  }

  /** `setPluginsEnabled`: flips the listed loaded plugins whose flag differs (names
      not loaded are skipped). When at least one flipped, the list in use is rebuilt
      once and `PluginInfoChanged` is emitted once, after whatever the rebuild emitted;
      when none flipped, nothing changes and nothing is emitted. */
  function SetPluginsEnabled(s: Store, names: seq<string>, enabled: bool, reason: Option<string>): (r: Step)
    ensures r.store == s.(loaded := r.store.loaded, extensions := r.store.extensions)
    ensures UniqueKeys(s.loaded) ==> |r.store.loaded| == |s.loaded| && UniqueKeys(r.store.loaded)
    ensures UniqueKeys(s.loaded) ==> forall i :: 0 <= i < |s.loaded| ==>
              r.store.loaded[i] == Entry(s.loaded[i].key, Flipped(s.loaded[i], names, enabled, reason))
    ensures UniqueKeys(s.loaded) ==>
              ((exists i :: 0 <= i < |s.loaded| && Flips(s.loaded[i], names, enabled)) <==> r.events != [])
    ensures r.events == [] ==> r == Step(s, [])
    ensures r.events != [] ==>
              && r.store.extensions == ConcatInUse(Values(r.store.loaded), s.flags)
              && r.events == (if r.store.extensions == s.extensions then [] else [ExtensionsChanged]) + [PluginInfoChanged]
  {
    var (loaded, changed) := FlipPlugins(s.loaded, names, enabled, reason);
    if !changed then
      assert UniqueKeys(s.loaded) ==> loaded == s.loaded;
      Step(s, [])
    else
      var u := UpdateExtensions(s.(loaded := loaded));
      Step(u.store, u.events + [PluginInfoChanged])
  }

  /** `enablePlugins`: flipped plugins lose their disable reason. */
  function EnablePlugins(s: Store, names: seq<string>): (r: Step)
    ensures UniqueKeys(s.loaded) ==> |r.store.loaded| == |s.loaded|
    ensures UniqueKeys(s.loaded) ==> forall i :: 0 <= i < |s.loaded| ==>
              (s.loaded[i].key in names ==> r.store.loaded[i].value.enabled) &&
              (Flips(s.loaded[i], names, true) ==> r.store.loaded[i].value.disableReason.None?) &&
              (s.loaded[i].key !in names ==> r.store.loaded[i] == s.loaded[i])
  {
    SetPluginsEnabled(s, names, true, None)
  }

  /** `disablePlugins`: flipped plugins record the given disable reason. */
  function DisablePlugins(s: Store, names: seq<string>, disableReason: Option<string>): (r: Step)
    ensures UniqueKeys(s.loaded) ==> |r.store.loaded| == |s.loaded|
    ensures UniqueKeys(s.loaded) ==> forall i :: 0 <= i < |s.loaded| ==>
              (s.loaded[i].key in names ==> !r.store.loaded[i].value.enabled) &&
              (Flips(s.loaded[i], names, false) ==> r.store.loaded[i].value.disableReason == disableReason) &&
              (s.loaded[i].key !in names ==> r.store.loaded[i] == s.loaded[i])
  {
    SetPluginsEnabled(s, names, false, disableReason)
  }

  // ---------------------------------------------------------------------------
  // Loading and failing

  /** Decimal rendering of a number, as in a template literal. */
  function NatToString(n: nat): (s: string)
    ensures |s| > 0 && forall i :: 0 <= i < |s| ==> '0' <= s[i] <= '9'
  {
    if n < 10 then [DigitChar(n)] else NatToString(n / 10) + [DigitChar(n % 10)]
  }

  function DigitChar(d: nat): (c: char)
    requires d < 10
    ensures '0' <= c <= '9'
  {
    ('0' as int + d) as char
  }

  /** Reads a decimal rendering back. */
  function ParseNat(s: string): nat {
    if s == [] then 0 else ParseNat(s[..|s| - 1]) * 10 + ((s[|s| - 1] as int - '0' as int) % 10)
  }

  lemma {:induction false} ParseNatToString(n: nat)
    ensures ParseNat(NatToString(n)) == n
  {
    var s := NatToString(n);
    if n >= 10 {
      ParseNatToString(n / 10);
      assert s[..|s| - 1] == NatToString(n / 10);
    }
  }

  /** The uid an extension gets: `${pluginName}[${index}]_${buildHash}`. */
  function Uid(pluginName: string, index: nat, buildHash: string): string {
    pluginName + "[" + NatToString(index) + "]_" + buildHash
  }

  /** `processExtensions`: tags each manifest extension with the plugin name and its
      uid, and decodes its code references against the plugin's entry module. */
  function ProcessExtensions(pluginName: string, buildHash: string, exts: seq<Extension>, entry: EntryModule)
    : (r: seq<LoadedExtension>)
    ensures |r| == |exts|
    ensures forall i :: 0 <= i < |exts| ==>
              && r[i].kind == exts[i].kind && r[i].flags == exts[i].flags
              && r[i].pluginName == pluginName && r[i].uid == Uid(pluginName, i, buildHash)
    ensures forall i :: 0 <= i < |exts| ==> Visitor.NoneBelow(r[i].properties, CodeRefs.IsEncodedCodeRef)
    ensures forall i :: 0 <= i < |exts| && CodeRefs.NoCodeRefs(exts[i].properties) ==>
              CodeRefs.EncodeCodeRefs(r[i].properties) == exts[i].properties
  {
    seq(|exts|, i requires 0 <= i < |exts| =>
      CodeRefs.DecodeCodeRefs(
        LoadedExtension(exts[i].kind, exts[i].properties, exts[i].flags, pluginName, Uid(pluginName, i, buildHash)),
        entry))
  }

  /** A name the store has seen before, loaded or failed: its next outcome is a reload. */
  predicate Known(s: Store, name: string) {
    Has(s.loaded, name) || Has(s.failed, name)
  }

  /** The plugin record `addPlugin` stores: disabled, without a disable reason. */
  function LoadedRecord(manifest: Manifest, entry: EntryModule, buildHash: string): LoadedPlugin {
    LoadedPlugin(
      PluginMetadata(manifest.name, manifest.version, manifest.dependencies),
      ProcessExtensions(manifest.name, buildHash, manifest.extensions, entry),
      entry, false, None)
  }

  /** `addPlugin`: stores the plugin, disabled, under its manifest name (in place when
      the name is already loaded, at the end otherwise), forgets any failure recorded
      for the name and emits `PluginInfoChanged`. The build hash is the manifest's, or
      `freshHash` (standing for a new random uuid) when it has none. Only a reload
      rebuilds the list in use. */
  function AddPlugin(s: Store, manifest: Manifest, entry: EntryModule, freshHash: string): (r: Step)
    ensures var hash := manifest.buildHash.GetOr(freshHash);
            r.store.loaded == Set(s.loaded, manifest.name, LoadedRecord(manifest, entry, hash))
    ensures r.store.failed == Delete(s.failed, manifest.name)
    ensures r.store.flags == s.flags && r.store.loader == s.loader && r.store.autoEnable == s.autoEnable
    ensures Known(s, manifest.name) ==>
              && r.store.extensions == ConcatInUse(Values(r.store.loaded), s.flags)
              && r.events == [PluginInfoChanged] + (if r.store.extensions == s.extensions then [] else [ExtensionsChanged])
    ensures !Known(s, manifest.name) ==> r.store.extensions == s.extensions && r.events == [PluginInfoChanged]
  {
    var name := manifest.name;
    var hash := manifest.buildHash.GetOr(freshHash);
    var reload := Known(s, name);
    var s1 := s.(loaded := Set(s.loaded, name, LoadedRecord(manifest, entry, hash)), failed := Delete(s.failed, name));
    if reload then
      var u := UpdateExtensions(s1);
      Step(u.store, [PluginInfoChanged] + u.events)
    else
      Step(s1, [PluginInfoChanged])
  }

  /** `registerFailedPlugin`: forgets any loaded plugin of that name, records the
      failure (in place when the name had already failed, at the end otherwise) and
      emits `PluginInfoChanged`. Only a reload rebuilds the list in use. */
  function RegisterFailedPlugin(s: Store, name: string, errorMessage: string, errorCause: Option<Cause>): (r: Step)
    ensures r.store.loaded == Delete(s.loaded, name)
    ensures r.store.failed == Set(s.failed, name, FailedPlugin(errorMessage, errorCause))
    ensures r.store.flags == s.flags && r.store.loader == s.loader && r.store.autoEnable == s.autoEnable
    ensures Known(s, name) ==>
              && r.store.extensions == ConcatInUse(Values(r.store.loaded), s.flags)
              && r.events == [PluginInfoChanged] + (if r.store.extensions == s.extensions then [] else [ExtensionsChanged])
    ensures !Known(s, name) ==> r.store.extensions == s.extensions && r.events == [PluginInfoChanged]
  {
    var reload := Known(s, name);
    var s1 := s.(loaded := Delete(s.loaded, name), failed := Set(s.failed, name, FailedPlugin(errorMessage, errorCause)));
    if reload then
      var u := UpdateExtensions(s1);
      Step(u.store, [PluginInfoChanged] + u.events)
    else
      Step(s1, [PluginInfoChanged])
  }

  /** The callback `setLoader` subscribes: a failure without a (non-empty) plugin name
      is only logged; a failure with one is recorded; a success adds the plugin and,
      when the store enables plugins on load, enables the name the loader reported.
      Flags, loader and the enabling option never change; every name the result does
      not mention keeps what it had. */
  function HandleLoaderResult(s: Store, result: LoaderResult, freshHash: string): (r: Step)
    ensures r.store.flags == s.flags && r.store.loader == s.loader && r.store.autoEnable == s.autoEnable
    ensures result.LoadFailed? && (result.failedName.None? || result.failedName.value == "") ==> r == Step(s, [])
    ensures result.LoadFailed? && result.failedName.Some? && result.failedName.value != "" ==>
              var name := result.failedName.value;
              && Has(r.store.failed, name) && !Has(r.store.loaded, name)
              && r.store.failed[IndexOf(r.store.failed, name)].value == FailedPlugin(result.errorMessage, result.errorCause)
              && (forall x :: Get(r.store.failed, x) ==
                    if x == name then Some(FailedPlugin(result.errorMessage, result.errorCause)) else Get(s.failed, x))
              && (UniqueKeys(s.loaded) ==> forall x :: Get(r.store.loaded, x) == if x == name then None else Get(s.loaded, x))
              && r.events != [] && r.events[0] == PluginInfoChanged
    ensures result.LoadSucceeded? ==>
              && r.events != [] && r.events[0] == PluginInfoChanged
              && r.store.failed == Delete(s.failed, result.manifest.name)
    ensures result.LoadSucceeded? && UniqueKeys(s.loaded) ==>
              var name := result.manifest.name;
              && Has(r.store.loaded, name) && !Has(r.store.failed, name)
              && r.store.loaded[IndexOf(r.store.loaded, name)].value.entry == result.entry
              && r.store.loaded[IndexOf(r.store.loaded, name)].value.enabled == (s.autoEnable && result.pluginName == name)
              && SucceededLoaded(s, result.pluginName, result.manifest, result.entry, freshHash, r.store.loaded)
  {
    match result
    case LoadFailed(name, message, cause) =>
      if name.Some? && name.value != "" then LoadFailedStep(s, name.value, message, cause)
      else Step(s, [])
    case LoadSucceeded(name, manifest, entry) => LoadSucceededStep(s, name, manifest, entry, freshHash)
  }

  /** A failure the loader names: recorded as failed, no longer loaded, every other
      name as it was. */
  function LoadFailedStep(s: Store, name: string, message: string, cause: Option<Cause>): (r: Step)
    ensures r.store.flags == s.flags && r.store.loader == s.loader && r.store.autoEnable == s.autoEnable
    ensures && Has(r.store.failed, name) && !Has(r.store.loaded, name)
            && r.store.failed[IndexOf(r.store.failed, name)].value == FailedPlugin(message, cause)
            && r.events != [] && r.events[0] == PluginInfoChanged
    ensures forall x :: Get(r.store.failed, x) == if x == name then Some(FailedPlugin(message, cause)) else Get(s.failed, x)
    ensures UniqueKeys(s.loaded) ==> forall x :: Get(r.store.loaded, x) == if x == name then None else Get(s.loaded, x)
  {
    SetFound(s.failed, name, FailedPlugin(message, cause));
    FailedRecords(s, name, FailedPlugin(message, cause));
    RegisterFailedPlugin(s, name, message, cause)
  }

  /** `registerFailedPlugin`'s maps, read through `map.get`: the failure under its
      name, the name no longer loaded, every other name as it was. */
  lemma FailedRecords(s: Store, name: string, failure: FailedPlugin)
    ensures forall x :: Get(Set(s.failed, name, failure), x) == if x == name then Some(failure) else Get(s.failed, x)
    ensures UniqueKeys(s.loaded) ==>
              forall x :: Get(Delete(s.loaded, name), x) == if x == name then None else Get(s.loaded, x)
  {
    forall x ensures Get(Set(s.failed, name, failure), x) == if x == name then Some(failure) else Get(s.failed, x) {
      GetSet(s.failed, name, failure, x);
    }
    if UniqueKeys(s.loaded) {
      forall x ensures Get(Delete(s.loaded, name), x) == if x == name then None else Get(s.loaded, x) {
        GetDelete(s.loaded, name, x);
      }
    }
  }

  /** What a successful load leaves in the loaded map `after`: the keys in the order
      `addPlugin` leaves them (the manifest's name in place when it was loaded, at the
      end otherwise); under that name the record built from the manifest, enabled
      exactly when the store enables on load and the loader reported that same name;
      when the store enables on load and the reported name is another loaded plugin,
      that plugin enabled (losing its disable reason if it was disabled); every other
      name as it was. */
  ghost predicate SucceededLoaded(s: Store, name: string, manifest: Manifest, entry: EntryModule, freshHash: string,
                                  after: OrderedMap<LoadedPlugin>)
  {
    var record := LoadedRecord(manifest, entry, manifest.buildHash.GetOr(freshHash));
    && UniqueKeys(after)
    && Keys(after) == Keys(Set(s.loaded, manifest.name, record))
    && forall x :: Get(after, x) ==
         if x == manifest.name then Some(record.(enabled := s.autoEnable && name == x))
         else if s.autoEnable && x == name && Has(s.loaded, x) then
           var p := s.loaded[IndexOf(s.loaded, x)].value;
           Some(if p.enabled then p else p.(enabled := true, disableReason := None))
         else Get(s.loaded, x)
  }

  /** A successful load: the plugin is added, then the reported name is enabled when
      the store enables plugins on load. The manifest's plugin ends loaded with the
      new entry module and not failed, and enabled exactly when the store enables on
      load and the loader reported that same name; `SucceededLoaded` states the rest
      of the loaded map. */
  function LoadSucceededStep(s: Store, name: string, manifest: Manifest, entry: EntryModule, freshHash: string): (r: Step)
    ensures r.store.flags == s.flags && r.store.loader == s.loader && r.store.autoEnable == s.autoEnable
    ensures r.store.failed == Delete(s.failed, manifest.name)
    ensures r.events != [] && r.events[0] == PluginInfoChanged
    ensures UniqueKeys(s.loaded) ==>
              && Has(r.store.loaded, manifest.name) && !Has(r.store.failed, manifest.name)
              && r.store.loaded[IndexOf(r.store.loaded, manifest.name)].value.entry == entry
              && r.store.loaded[IndexOf(r.store.loaded, manifest.name)].value.enabled == (s.autoEnable && name == manifest.name)
              && SucceededLoaded(s, name, manifest, entry, freshHash, r.store.loaded)
  {
    var added := AddPlugin(s, manifest, entry, freshHash);
    AddedDisabled(s, manifest, entry, freshHash);
    SucceededRecords(s, name, manifest, entry, freshHash);
    if s.autoEnable then
      var enabled := EnablePlugins(added.store, [name]);
      EnabledNamed(added.store, name, manifest.name);
      assert (added.events + enabled.events)[0] == added.events[0];
      Step(enabled.store, added.events + enabled.events)
    else added
  }

  /** The loaded map a successful load leaves satisfies `SucceededLoaded`. */
  lemma SucceededRecords(s: Store, name: string, manifest: Manifest, entry: EntryModule, freshHash: string)
    ensures var added := AddPlugin(s, manifest, entry, freshHash).store;
            UniqueKeys(s.loaded) ==> SucceededLoaded(s, name, manifest, entry, freshHash,
                            if s.autoEnable then EnablePlugins(added, [name]).store.loaded else added.loaded)
  {
    var record := LoadedRecord(manifest, entry, manifest.buildHash.GetOr(freshHash));
    var added := AddPlugin(s, manifest, entry, freshHash).store;
    AddedDisabled(s, manifest, entry, freshHash);
    AddedRecords(s, manifest, entry, freshHash);
    if UniqueKeys(s.loaded) && s.autoEnable {
      var after := SetPluginsEnabled(added, [name], true, None).store.loaded;
      EnabledRecords(s, name, manifest, entry, freshHash, added.loaded, after);
    }
  }

  /** `addPlugin`'s loaded map, read through `map.get`: the manifest's record under its
      name, every other name as it was. */
  lemma AddedRecords(s: Store, manifest: Manifest, entry: EntryModule, freshHash: string)
    ensures var record := LoadedRecord(manifest, entry, manifest.buildHash.GetOr(freshHash));
            forall x :: Get(Set(s.loaded, manifest.name, record), x) ==
              if x == manifest.name then Some(record) else Get(s.loaded, x)
  {
    var record := LoadedRecord(manifest, entry, manifest.buildHash.GetOr(freshHash));
    forall x ensures Get(Set(s.loaded, manifest.name, record), x) ==
                     if x == manifest.name then Some(record) else Get(s.loaded, x) {
      GetSet(s.loaded, manifest.name, record, x);
    }
  }

  /** Enabling the reported name after `addPlugin`, read through `map.get`. */
  lemma EnabledRecords(s: Store, name: string, manifest: Manifest, entry: EntryModule, freshHash: string,
                       added: OrderedMap<LoadedPlugin>, after: OrderedMap<LoadedPlugin>)
    requires s.autoEnable
    requires var record := LoadedRecord(manifest, entry, manifest.buildHash.GetOr(freshHash));
             && added == Set(s.loaded, manifest.name, record)
             && forall x :: Get(added, x) == if x == manifest.name then Some(record) else Get(s.loaded, x)
    requires UniqueKeys(added) && |after| == |added|
    requires forall i :: 0 <= i < |added| ==> after[i] == Entry(added[i].key, Flipped(added[i], [name], true, None))
    ensures SucceededLoaded(s, name, manifest, entry, freshHash, after)
  {
    var record := LoadedRecord(manifest, entry, manifest.buildHash.GetOr(freshHash));
    GetFlipped(added, [name], true, None, after);
    forall x ensures Get(after, x) ==
         if x == manifest.name then Some(record.(enabled := s.autoEnable && name == x))
         else if s.autoEnable && x == name && Has(s.loaded, x) then
           var p := s.loaded[IndexOf(s.loaded, x)].value;
           Some(if p.enabled then p else p.(enabled := true, disableReason := None))
         else Get(s.loaded, x)
    {
      assert x in [name] <==> x == name;
      assert Get(added, x) == if x == manifest.name then Some(record) else Get(s.loaded, x);
      if x == manifest.name {
        assert Has(added, x) && added[IndexOf(added, x)].value == record;
        assert !record.enabled && record.disableReason.None?;
      } else if Has(s.loaded, x) {
        assert Has(added, x) && added[IndexOf(added, x)].value == s.loaded[IndexOf(s.loaded, x)].value;
      } else {
        assert !Has(added, x);
      }
    }
    assert Keys(after) == Keys(added);
  }

  /** A map flipped entry by entry, read through `map.get`. */
  lemma GetFlipped(m: OrderedMap<LoadedPlugin>, names: seq<string>, enabled: bool, reason: Option<string>,
                   r: OrderedMap<LoadedPlugin>)
    requires UniqueKeys(m) && |r| == |m|
    requires forall i :: 0 <= i < |m| ==> r[i] == Entry(m[i].key, Flipped(m[i], names, enabled, reason))
    ensures UniqueKeys(r)
    ensures forall x :: Get(r, x) == if Has(m, x) then Some(Flipped(m[IndexOf(m, x)], names, enabled, reason)) else None
  {
    SameKeys(m, r);
  }

  /** `addPlugin` leaves the plugin loaded with the new entry module, disabled and not
      failed. */
  lemma AddedDisabled(s: Store, manifest: Manifest, entry: EntryModule, freshHash: string)
    ensures var r := AddPlugin(s, manifest, entry, freshHash).store;
            && Has(r.loaded, manifest.name) && !Has(r.failed, manifest.name)
            && r.loaded[IndexOf(r.loaded, manifest.name)].value.entry == entry
            && !r.loaded[IndexOf(r.loaded, manifest.name)].value.enabled
            && (UniqueKeys(s.loaded) ==> UniqueKeys(r.loaded))
  {
    var name := manifest.name;
    var record := LoadedRecord(manifest, entry, manifest.buildHash.GetOr(freshHash));
    SetKeys(s.loaded, name, record);
    SetFound(s.loaded, name, record);
  }

  /** Enabling one name leaves every loaded plugin loaded; the named one ends enabled,
      the others as they were. The failed map is untouched. */
  lemma EnabledNamed(s: Store, name: string, x: string)
    ensures var r := EnablePlugins(s, [name]).store;
            && r.failed == s.failed
            && (UniqueKeys(s.loaded) && Has(s.loaded, x) ==>
                  && Has(r.loaded, x)
                  && r.loaded[IndexOf(r.loaded, x)].value.entry == s.loaded[IndexOf(s.loaded, x)].value.entry
                  && r.loaded[IndexOf(r.loaded, x)].value.enabled == (x == name || s.loaded[IndexOf(s.loaded, x)].value.enabled))
  {
    var r := EnablePlugins(s, [name]).store;
    if UniqueKeys(s.loaded) && Has(s.loaded, x) {
      var j := IndexOf(s.loaded, x);
      assert r.loaded[j].key == x;
      assert x in [name] <==> x == name;
      SameKeys(s.loaded, r.loaded);
      assert IndexOf(r.loaded, x) == j;
    }
  }

  // ---------------------------------------------------------------------------
  // Queries

  /** `getPluginInfo`: every loaded plugin, then every failed one, each in its map's
      order. */
  function GetPluginInfo(s: Store): (r: seq<PluginInfoEntry>)
    ensures |r| == |s.loaded| + |s.failed|
    ensures forall i :: 0 <= i < |s.loaded| ==>
              var p := s.loaded[i].value;
              r[i] == LoadedInfo(s.loaded[i].key, p.metadata, p.enabled, p.disableReason)
    ensures forall i :: 0 <= i < |s.failed| ==>
              var f := s.failed[i].value;
              r[|s.loaded| + i] == FailedInfo(s.failed[i].key, f.errorMessage, f.errorCause)
  {
    seq(|s.loaded|, i requires 0 <= i < |s.loaded| =>
      LoadedInfo(s.loaded[i].key, s.loaded[i].value.metadata, s.loaded[i].value.enabled, s.loaded[i].value.disableReason))
    + seq(|s.failed|, i requires 0 <= i < |s.failed| =>
      FailedInfo(s.failed[i].key, s.failed[i].value.errorMessage, s.failed[i].value.errorCause))
  }

  /** The formatter `getExposedModule` gives `getPluginModule`. */
  function OfPlugin(pluginName: string): string {
    " of plugin " + pluginName
  }

  /** `getExposedModule`: refuses a plugin that is not loaded; otherwise fetches the
      module through that plugin's entry module. */
  function GetExposedModule(s: Store, pluginName: string, moduleName: string, modules: ModuleLoader)
    : (r: Result<Module, StoreError>)
    ensures !Has(s.loaded, pluginName) ==>
              r == Failure(PluginNotLoaded("Attempt to get module '" + moduleName + "' of plugin " + pluginName
                                           + " which is not loaded yet"))
    ensures Has(s.loaded, pluginName) ==>
              var entry := s.loaded[IndexOf(s.loaded, pluginName)].value.entry;
              && (r.Success? <==> modules(entry, moduleName).Success?)
              && (r.Success? ==> r.value == modules(entry, moduleName).value)
              && (r.Failure? ==> r.error.ModuleUnavailable? && CodeRefs.EndsWith(r.error.error.message, OfPlugin(pluginName)))
  {
    match Get(s.loaded, pluginName)
    case None =>
      Failure(PluginNotLoaded("Attempt to get module '" + moduleName + "' of plugin " + pluginName + " which is not loaded yet"))
    case Some(p) =>
      match CodeRefs.GetPluginModule(moduleName, p.entry, OfPlugin(pluginName), modules)
      case Success(m) => Success(m)
      case Failure(e) =>
        var whole := "Failed to load module '" + moduleName + "'" + OfPlugin(pluginName);
        var suffix := OfPlugin(pluginName);
        assert whole[|whole| - |suffix|..] == suffix;
        assert e.message[|e.message| - |suffix|..] == whole[|whole| - |suffix|..];
        Failure(ModuleUnavailable(e))
  }

  // ---------------------------------------------------------------------------
  // The invariant

  /** What holds of every store the transitions produce: the maps have no duplicate
      keys, no name is both loaded and failed, an enabled plugin has no disable
      reason, and the cached list is the reference list for the current plugins and
      flags. */
  ghost predicate Valid(s: Store) {
    && UniqueKeys(s.loaded)
    && UniqueKeys(s.failed)
    && (forall k :: Has(s.loaded, k) ==> !Has(s.failed, k))
    && (forall i :: 0 <= i < |s.loaded| && s.loaded[i].value.enabled ==> s.loaded[i].value.disableReason.None?)
    && s.extensions == ConcatInUse(Values(s.loaded), s.flags)
  }
}

=== FILE: scenarios.dfy ===
/** Worked examples, as lemmas about the model. */
module Scenarios {
  import opened Wrappers
  import opened Types
  import opened OrderedMaps
  import opened CodeRefs
  import opened PluginStore
  import Visitor

  /** The wire form `{"$codeRef": ref}`. */
  function Encoded(ref: string): Value {
    Obj([Field(CodeRefKey, Str(ref))])
  }

  /** An extension without flags whose properties are `fields`. */
  function ExtensionOf(fields: seq<Field>, uid: string): LoadedExtension {
    LoadedExtension("app.page", Obj(fields), None, "p", uid)
  }

  lemma SegmentMod()
    ensures IsSegment("mod") && IsSegment("Foo")
  {
    assert "mod" == ['m', 'o', 'd'];
    assert "Foo" == ['F', 'o', 'o'];
  }

  /** Decoding a one-property tree whose value is encoded gives a code reference bound
      to the entry module and the uid. */
  lemma DecodeOneField(key: string, ref: string, entry: EntryModule, uid: string)
    ensures DecodeCodeRefs(ExtensionOf([Field(key, Encoded(ref))], uid), entry)
            == ExtensionOf([Field(key, Ref(CodeRef(ref, entry, uid)))], uid)
  {
    var v := Obj([Field(key, Encoded(ref))]);
    Visitor.VisitRewrites(v, IsEncodedCodeRef, DecodeCallback(entry, uid), ToCodeRefFn(entry, uid));
    Visitor.MapFieldsAt(v.fields, IsEncodedCodeRef, ToCodeRefFn(entry, uid));
    assert IsEncodedCodeRef(Encoded(ref));
  }

  /** Resolving a one-property tree holding a code reference that succeeds. */
  lemma ResolveOneField(key: string, c: CodeRef, uid: string, modules: ModuleLoader, x: Value)
    requires InvokeCodeRef(c, modules) == Success(x)
    ensures ResolveCodeRefValues(ExtensionOf([Field(key, Ref(c))], uid), modules)
            == Success(ExtensionOf([Field(key, x)], uid))
  {
    var v := Obj([Field(key, Ref(c))]);
    assert v.fields[1..] == [];
    assert Visitor.MatchFields(v.fields, IsCodeRef) == [Ref(c)] + Visitor.MatchFields([], IsCodeRef);
    assert CodeRefsIn(v) == [c];
    Visitor.MapFieldsAt(v.fields, IsCodeRef, ResolvedValueFn(modules));
    assert ResolvedValueFn(modules)(Ref(c)) == x;
    assert Visitor.MapDeep(v, IsCodeRef, ResolvedValueFn(modules)) == Obj([Field(key, x)]);
  }

  /** `{"$codeRef": "mod.Foo"}`, decoded and then resolved against an entry module
      whose module `mod` exports `Foo = 42`, resolves to 42. */
  lemma ResolvesToExport(entry: EntryModule, uid: string, modules: ModuleLoader)
    requires modules(entry, "mod") == Success(map["Foo" := Num(42)])
    ensures var decoded := DecodeCodeRefs(ExtensionOf([Field("ref", Encoded("mod.Foo"))], uid), entry);
            ResolveCodeRefValues(decoded, modules) == Success(ExtensionOf([Field("ref", Num(42))], uid))
  {
    var c := CodeRef("mod.Foo", entry, uid);
    DecodeOneField("ref", "mod.Foo", entry, uid);
    SegmentMod();
    ParseModuleAndExport("mod", "Foo");
    assert Derives(c.encoded, Target("mod", "Foo"));
    assert InvokeCodeRef(c, modules) == Success(Num(42));
    ResolveOneField("ref", c, uid, modules, Num(42));
  }

  /** `mod.Foo` resolves to the export. */
  lemma GoodRefResolves(entry: EntryModule, uid: string, modules: ModuleLoader)
    requires modules(entry, "mod") == Success(map["Foo" := Num(42)])
    ensures InvokeCodeRef(CodeRef("mod.Foo", entry, uid), modules) == Success(Num(42))
  {
    SegmentMod();
    ParseModuleAndExport("mod", "Foo");
    assert Derives("mod.Foo", Target("mod", "Foo"));
  }

  /** `mod..Foo` is malformed. */
  lemma BadRefIsMalformed(entry: EntryModule, uid: string, modules: ModuleLoader)
    ensures var r := InvokeCodeRef(CodeRef("mod..Foo", entry, uid), modules);
            r.Failure? && r.error.MalformedCodeRef?
  {
    var ref := "mod..Foo";
    ParseRejects(ref);
    assert ref[3] == '.' && ref[4] == '.';
    forall t ensures !Derives(ref, t) {
      ParseIsGrammar(ref, t);
    }
  }

  /** One reference resolves, the other (`mod..Foo`) is malformed: the extension fails
      with exactly one cause, the malformed one, while an extension holding only the
      good reference resolves. */
  lemma FailSoftAggregation(entry: EntryModule, uid: string, modules: ModuleLoader)
    requires modules(entry, "mod") == Success(map["Foo" := Num(42)])
    ensures var good := Ref(CodeRef("mod.Foo", entry, uid));
            var bad := Ref(CodeRef("mod..Foo", entry, uid));
            var r := ResolveCodeRefValues(ExtensionOf([Field("a", good), Field("b", bad)], uid), modules);
            && r.Failure? && |r.error.causes| == 1 && r.error.causes[0].MalformedCodeRef?
            && ResolveCodeRefValues(ExtensionOf([Field("a", good)], uid), modules).Success?
  {
    var good := CodeRef("mod.Foo", entry, uid);
    var bad := CodeRef("mod..Foo", entry, uid);
    GoodRefResolves(entry, uid, modules);
    BadRefIsMalformed(entry, uid, modules);
    var v := Obj([Field("a", Ref(good)), Field("b", Ref(bad))]);
    TwoRefs(v, good, bad);
    assert FailingRefs([bad], modules) == [bad] + FailingRefs([], modules);
    assert FailingRefs([good, bad], modules) == FailingRefs([bad], modules);
    assert bad in CodeRefsIn(v);
    ResolveOneField("a", good, uid, modules, Num(42));
  }

  lemma TwoRefs(v: Value, a: CodeRef, b: CodeRef)
    requires v == Obj([Field("a", Ref(a)), Field("b", Ref(b))])
    ensures CodeRefsIn(v) == [a, b]
  {
    assert v.fields[1..] == [Field("b", Ref(b))];
    assert v.fields[1..][1..] == [];
    assert Visitor.MatchFields(v.fields[1..], IsCodeRef) == [Ref(b)] + Visitor.MatchFields([], IsCodeRef);
    assert Visitor.MatchFields(v.fields, IsCodeRef) == [Ref(a), Ref(b)];
  }

  /** The flag-gating example: required `A`, disallowed `B`. */
  lemma FlagGating(e: LoadedExtension)
    requires e.flags == Some(ExtensionFlags(Some(["A"]), Some(["B"])))
    ensures IsExtensionInUse(e, map["A" := true, "B" := false])
    ensures !IsExtensionInUse(e, map["A" := true, "B" := true])
    ensures !IsExtensionInUse(e, map[])
  {
  }

  /** A plugin with one unflagged extension: added disabled, so nothing is in use;
      enabled, its extension is in use; failing afterwards leaves it listed as failed
      only, and nothing in use. */
  lemma PluginLifecycle(options: StoreOptions, ext: Extension, entry: EntryModule, hash: string)
    requires ext.flags.None?
    ensures var manifest := Manifest("p1", "1.0.0", None, Some(hash), [ext]);
            var s1 := AddPlugin(NewStore(options), manifest, entry, "unused").store;
            var s2 := EnablePlugins(s1, ["p1"]).store;
            var s3 := RegisterFailedPlugin(s2, "p1", "boom", None).store;
            && GetExtensions(s1) == []
            && GetExtensions(s2) == ProcessExtensions("p1", hash, [ext], entry)
            && GetPluginInfo(s3) == [FailedInfo("p1", "boom", None)]
            && GetExtensions(s3) == []
  {
    var manifest := Manifest("p1", "1.0.0", None, Some(hash), [ext]);
    var record := LoadedRecord(manifest, entry, hash);
    var s1 := AddPlugin(NewStore(options), manifest, entry, "unused").store;
    LifecycleAdded(options, manifest, entry);
    var s2 := EnablePlugins(s1, ["p1"]).store;
    LifecycleEnabled(s1, record);
    LifecycleFailed(s2, record.(enabled := true, disableReason := None));
  }

  lemma LifecycleAdded(options: StoreOptions, manifest: Manifest, entry: EntryModule)
    requires manifest.name == "p1" && manifest.buildHash.Some?
    ensures var s1 := AddPlugin(NewStore(options), manifest, entry, "unused").store;
            && s1.loaded == [Entry("p1", LoadedRecord(manifest, entry, manifest.buildHash.value))]
            && s1.failed == [] && s1.extensions == [] && s1.flags == map[]
  {
  }

  lemma LifecycleEnabled(s1: Store, record: LoadedPlugin)
    requires s1.loaded == [Entry("p1", record)] && s1.failed == [] && s1.flags == map[]
    requires !record.enabled && |record.extensions| == 1 && record.extensions[0].flags.None?
    ensures var s2 := EnablePlugins(s1, ["p1"]).store;
            && s2.loaded == [Entry("p1", record.(enabled := true, disableReason := None))]
            && s2.failed == [] && s2.flags == map[] && s2.extensions == record.extensions
  {
    var s2 := EnablePlugins(s1, ["p1"]).store;
    assert UniqueKeys(s1.loaded);
    assert Flips(s1.loaded[0], ["p1"], true);
    assert s2.loaded == [Entry("p1", record.(enabled := true, disableReason := None))];
    var exts := record.extensions;
    assert FilterInUse(exts, s2.flags) == [exts[0]] + FilterInUse([], s2.flags);
    assert ConcatInUse(Values(s2.loaded), s2.flags) == exts + ConcatInUse([], s2.flags);
  }

  lemma LifecycleFailed(s2: Store, record: LoadedPlugin)
    requires s2.loaded == [Entry("p1", record)] && s2.failed == []
    ensures var s3 := RegisterFailedPlugin(s2, "p1", "boom", None).store;
            && GetPluginInfo(s3) == [FailedInfo("p1", "boom", None)]
            && GetExtensions(s3) == []
  {
    var s3 := RegisterFailedPlugin(s2, "p1", "boom", None).store;
    assert Has(s2.loaded, "p1");
    assert s3.loaded == [];
    assert s3.failed == [Entry("p1", FailedPlugin("boom", None))];
  }
}

=== FILE: store_properties.dfy ===
/** Properties of the plugin store across transitions: the invariant every reachable
    store keeps, repetition and reordering of calls, and uniqueness of extension uids. */
module StoreProperties {
  import opened Wrappers
  import opened Types
  import opened OrderedMaps
  import opened PluginStore
  import CodeRefs

  // ---------------------------------------------------------------------------
  // The list in use

  /** Adding a plugin at the end adds its contribution at the end. */
  lemma {:induction false} ConcatAppend(ps: seq<LoadedPlugin>, p: LoadedPlugin, flags: FeatureFlags)
    ensures ConcatInUse(ps + [p], flags) == ConcatInUse(ps, flags) + Contribution(p, flags)
  {
    if ps == [] {
      assert ps + [p] == [p];
      assert ConcatInUse([p], flags) == Contribution(p, flags) + ConcatInUse([], flags);
    } else {
      assert (ps + [p])[1..] == ps[1..] + [p];
      ConcatAppend(ps[1..], p, flags);
    }
  }

  /** An extension is in use exactly when some enabled plugin declares it and its
      flags are met: which ones are in use does not depend on the plugins' order. */
  lemma {:induction false} InUseMembership(ps: seq<LoadedPlugin>, flags: FeatureFlags, e: LoadedExtension)
    ensures e in ConcatInUse(ps, flags) <==>
              exists i :: 0 <= i < |ps| && ps[i].enabled && e in ps[i].extensions && IsExtensionInUse(e, flags)
  {
    if ps != [] {
      InUseMembership(ps[1..], flags, e);
      if e in ConcatInUse(ps[1..], flags) {
        var i :| 0 <= i < |ps[1..]| && ps[1..][i].enabled && e in ps[1..][i].extensions && IsExtensionInUse(e, flags);
        assert ps[i + 1] == ps[1..][i];
      }
      if exists i :: 0 <= i < |ps| && ps[i].enabled && e in ps[i].extensions && IsExtensionInUse(e, flags) {
        var i :| 0 <= i < |ps| && ps[i].enabled && e in ps[i].extensions && IsExtensionInUse(e, flags);
        if i > 0 {
          assert ps[1..][i - 1] == ps[i];
        }
      }
    }
  }

  // ---------------------------------------------------------------------------
  // Preservation of the invariant

  lemma ValuesAppend<V>(m: OrderedMap<V>, e: Entry<V>)
    ensures Values(m + [e]) == Values(m) + [e.value]
  {
  }

  /** The first store is valid. */
  lemma NewStoreValid(options: StoreOptions)
    ensures Valid(NewStore(options))
  {
  }

  /** `setFeatureFlags` keeps the invariant. */
  lemma SetFeatureFlagsPreservesValid(s: Store, patch: map<string, Value>)
    requires Valid(s)
    ensures Valid(SetFeatureFlags(s, patch).store)
  {
  }

  /** `enablePlugins` and `disablePlugins` keep the invariant: enabling never comes
      with a disable reason. */
  lemma {:induction false} SetPluginsEnabledPreservesValid(s: Store, names: seq<string>, enabled: bool, reason: Option<string>)
    requires Valid(s)
    requires enabled ==> reason.None?
    ensures Valid(SetPluginsEnabled(s, names, enabled, reason).store)
  {
    var r := SetPluginsEnabled(s, names, enabled, reason).store;
    SameKeys(s.loaded, r.loaded);
    forall i | 0 <= i < |r.loaded| && r.loaded[i].value.enabled
      ensures r.loaded[i].value.disableReason.None?
    {
      assert r.loaded[i].value == Flipped(s.loaded[i], names, enabled, reason);
    }
  }

  /** `addPlugin` keeps the invariant: the plugin it stores is disabled, so a first
      load leaves the list in use as it was. */
  lemma {:induction false} AddPluginPreservesValid(s: Store, manifest: Manifest, entry: EntryModule, freshHash: string)
    requires Valid(s)
    ensures Valid(AddPlugin(s, manifest, entry, freshHash).store)
  {
    var name := manifest.name;
    var record := LoadedRecord(manifest, entry, manifest.buildHash.GetOr(freshHash));
    var r := AddPlugin(s, manifest, entry, freshHash).store;
    SetKeys(s.loaded, name, record);
    if Has(s.loaded, name) {
      assert r.loaded == s.loaded[IndexOf(s.loaded, name) := Entry(name, record)];
    } else {
      assert r.loaded == s.loaded + [Entry(name, record)];
      if !Known(s, name) {
        ValuesAppend(s.loaded, Entry(name, record));
        ConcatAppend(Values(s.loaded), record, s.flags);
        assert ConcatInUse(Values(s.loaded), s.flags) + [] == ConcatInUse(Values(s.loaded), s.flags);
      }
    }
  }

  /** Every entry left after a deletion was an entry before. */
  lemma DeleteFrom<V>(m: OrderedMap<V>, k: string)
    requires UniqueKeys(m)
    ensures forall j :: 0 <= j < |Delete(m, k)| ==> Delete(m, k)[j] in m
  {
    if Has(m, k) {
      var i := IndexOf(m, k);
      forall j | 0 <= j < |Delete(m, k)| ensures Delete(m, k)[j] in m {
        if j < i {
          assert Delete(m, k)[j] == m[j];
        } else {
          assert Delete(m, k)[j] == m[j + 1];
        }
      }
    }
  }

  /** `registerFailedPlugin` keeps the invariant. */
  lemma {:induction false} RegisterFailedPreservesValid(s: Store, name: string, message: string, cause: Option<Cause>)
    requires Valid(s)
    ensures Valid(RegisterFailedPlugin(s, name, message, cause).store)
  {
    var r := RegisterFailedPlugin(s, name, message, cause).store;
    SetKeys(s.failed, name, FailedPlugin(message, cause));
    DeleteFrom(s.loaded, name);
    ReasonsKept(s.loaded, r.loaded);
  }

  /** Entries drawn from a map whose enabled plugins have no disable reason have none either. */
  lemma ReasonsKept(a: OrderedMap<LoadedPlugin>, b: OrderedMap<LoadedPlugin>)
    requires forall j :: 0 <= j < |b| ==> b[j] in a
    requires forall i :: 0 <= i < |a| && a[i].value.enabled ==> a[i].value.disableReason.None?
    ensures forall i :: 0 <= i < |b| && b[i].value.enabled ==> b[i].value.disableReason.None?
  {
    forall i | 0 <= i < |b| && b[i].value.enabled
      ensures b[i].value.disableReason.None?
    {
      var j :| 0 <= j < |a| && a[j] == b[i];
    }
  }

  /** The loader-result handler keeps the invariant. */
  lemma HandleLoaderResultPreservesValid(s: Store, result: LoaderResult, freshHash: string)
    requires Valid(s)
    ensures Valid(HandleLoaderResult(s, result, freshHash).store)
  {
    match result
    case LoadFailed(name, message, cause) =>
      if name.Some? && name.value != "" {
        RegisterFailedPreservesValid(s, name.value, message, cause);
      }
    case LoadSucceeded(name, manifest, entry) =>
      AddPluginPreservesValid(s, manifest, entry, freshHash);
      var added := AddPlugin(s, manifest, entry, freshHash);
      SetPluginsEnabledPreservesValid(added.store, [name], true, None);
  }

  // ---------------------------------------------------------------------------
  // Queries

  /** The name of the i-th `getPluginInfo` entry. */
  lemma InfoNameAt(s: Store, i: nat)
    requires i < |GetPluginInfo(s)|
    ensures GetPluginInfo(s)[i].pluginName == if i < |s.loaded| then s.loaded[i].key else s.failed[i - |s.loaded|].key
  {
  }

  /** `getPluginInfo` lists exactly the known names. */
  lemma PluginInfoNames(s: Store, name: string)
    ensures (exists i :: 0 <= i < |GetPluginInfo(s)| && GetPluginInfo(s)[i].pluginName == name) <==> Known(s, name)
  {
    var r := GetPluginInfo(s);
    var n := |s.loaded|;
    if Has(s.loaded, name) {
      var i :| 0 <= i < n && s.loaded[i].key == name;
      InfoNameAt(s, i);
    } else if Has(s.failed, name) {
      var i :| 0 <= i < |s.failed| && s.failed[i].key == name;
      InfoNameAt(s, n + i);
    }
    if i :| 0 <= i < |r| && r[i].pluginName == name {
      InfoNameAt(s, i);
      if i < n {
        assert s.loaded[i].key == name;
      } else {
        assert s.failed[i - n].key == name;
      }
    }
  }

  /** In a valid store `getPluginInfo` has one entry per name. */
  lemma PluginInfoOnePerName(s: Store)
    requires Valid(s)
    ensures forall i, j :: 0 <= i < j < |GetPluginInfo(s)| ==> GetPluginInfo(s)[i].pluginName != GetPluginInfo(s)[j].pluginName
  {
    DistinctInfoNames(s);
  }

  lemma DistinctInfoNames(s: Store)
    requires UniqueKeys(s.loaded) && UniqueKeys(s.failed)
    requires forall k :: Has(s.loaded, k) ==> !Has(s.failed, k)
    ensures forall i, j :: 0 <= i < j < |GetPluginInfo(s)| ==> GetPluginInfo(s)[i].pluginName != GetPluginInfo(s)[j].pluginName
  {
    var r := GetPluginInfo(s);
    var n := |s.loaded|;
    forall i, j | 0 <= i < j < |r| ensures r[i].pluginName != r[j].pluginName {
      InfoNameAt(s, i);
      InfoNameAt(s, j);
      if i < n && n <= j {
        assert Has(s.loaded, s.loaded[i].key);
        assert Has(s.failed, s.failed[j - n].key);
      }
    }
  }

  /** After `addPlugin`, the plugin's modules come through the entry module just loaded. */
  lemma ExposedAfterAdd(s: Store, manifest: Manifest, entry: EntryModule, freshHash: string,
                        moduleName: string, modules: ModuleLoader)
    ensures var r := GetExposedModule(AddPlugin(s, manifest, entry, freshHash).store, manifest.name, moduleName, modules);
            && (r.Success? <==> modules(entry, moduleName).Success?)
            && (r.Success? ==> r.value == modules(entry, moduleName).value)
  {
    AddedDisabled(s, manifest, entry, freshHash);
  }

  /** After a failure is recorded for a name, its modules are refused as not loaded. */
  lemma ExposedAfterFailure(s: Store, name: string, message: string, cause: Option<Cause>,
                            moduleName: string, modules: ModuleLoader)
    ensures GetExposedModule(RegisterFailedPlugin(s, name, message, cause).store, name, moduleName, modules)
            == Failure(PluginNotLoaded("Attempt to get module '" + moduleName + "' of plugin " + name + " which is not loaded yet"))
  {
  }

  /** `getExposedModule` and a code reference of the same plugin load a module through
      the same `getPluginModule`: one fails to load it exactly when the other does,
      with the same cause. */
  lemma ExposedAgreesWithCodeRefs(s: Store, pluginName: string, c: CodeRef, t: CodeRefs.Target,
                                  modules: ModuleLoader)
    requires Has(s.loaded, pluginName) && c.entry == s.loaded[IndexOf(s.loaded, pluginName)].value.entry
    requires CodeRefs.Derives(c.encoded, t)
    ensures var r := GetExposedModule(s, pluginName, t.moduleName, modules);
            var v := CodeRefs.InvokeCodeRef(c, modules);
            && (r.Failure? <==> v.Failure? && v.error.ModuleLoadError?)
            && (r.Failure? ==> r.error.error.cause == v.error.cause)
  {
    CodeRefs.InvokeLoadsThroughPluginModule(c, modules, t);
  }

  // ---------------------------------------------------------------------------
  // Arbitrary sequences of calls

  /** The store together with the loader subscriptions made through `setLoader`.
      `issued` holds the loaders whose attach succeeded, so whose disconnect function
      exists; `subscribed` those whose subscription is still live. */
  datatype Session = Session(store: Store, issued: set<LoaderId>, subscribed: set<LoaderId>)

  function NewSession(options: StoreOptions): Session {
    Session(NewStore(options), {}, {})
  }

  /** What every reachable session keeps: subscriptions were made by a successful
      attach, and the attached loader, if any, is still subscribed. */
  ghost predicate Consistent(ss: Session) {
    && ss.subscribed <= ss.issued
    && (HasLoader(ss.store) ==> ss.store.loader.value in ss.subscribed)
  }

  /** A public call on the store, or a result delivered through a loader's
      subscription. `DetachLoader(l)` calls the disconnect function returned when `l`
      was attached. */
  datatype Op =
    | AttachLoader(loader: LoaderId)
    | DetachLoader(loader: LoaderId)
    | Deliver(from: LoaderId, result: LoaderResult, freshHash: string)
    | SetFlags(patch: map<string, Value>)
    | Enable(names: seq<string>)
    | Disable(names: seq<string>, reason: Option<string>)

  datatype SessionStep = SessionStep(session: Session, events: seq<Event>)

  /** One call. A second loader is refused and changes nothing. A disconnect
      unsubscribes its own loader but clears whichever loader is attached. A result
      reaches the store exactly while its loader's subscription is live, whether or
      not that loader is still the attached one. */
  function Apply(ss: Session, op: Op): (r: SessionStep)
    ensures op.AttachLoader? && HasLoader(ss.store) ==> r == SessionStep(ss, [])
    ensures op.AttachLoader? && !HasLoader(ss.store) ==>
              && r.session.store == ss.store.(loader := Some(op.loader)) && r.events == []
              && r.session.issued == ss.issued + {op.loader} && r.session.subscribed == ss.subscribed + {op.loader}
    ensures op.DetachLoader? && op.loader !in ss.issued ==> r == SessionStep(ss, [])
    ensures op.DetachLoader? && op.loader in ss.issued ==>
              && r.session.store == ss.store.(loader := None) && r.events == []
              && r.session.issued == ss.issued && r.session.subscribed == ss.subscribed - {op.loader}
    ensures op.Deliver? && op.from !in ss.subscribed ==> r == SessionStep(ss, [])
    ensures op.Deliver? && op.from in ss.subscribed ==>
              && r.session.store == HandleLoaderResult(ss.store, op.result, op.freshHash).store
              && r.session.store.loader == ss.store.loader
    ensures !op.AttachLoader? && !op.DetachLoader? ==>
              r.session.issued == ss.issued && r.session.subscribed == ss.subscribed
  {
    var st := ss.store;
    match op
    case AttachLoader(l) =>
      (match SetLoader(st, l)
       case Success(t) => SessionStep(Session(t, ss.issued + {l}, ss.subscribed + {l}), [])
       case Failure(_) => SessionStep(ss, []))
    case DetachLoader(l) =>
      if l in ss.issued then SessionStep(Session(Disconnect(st), ss.issued, ss.subscribed - {l}), [])
      else SessionStep(ss, [])
    case Deliver(l, result, hash) =>
      if l in ss.subscribed then
        var h := HandleLoaderResult(st, result, hash);
        LoaderUntouched(st, result, hash);
        SessionStep(ss.(store := h.store), h.events)
      else SessionStep(ss, [])
    case SetFlags(patch) => Lift(ss, SetFeatureFlags(st, patch))
    case Enable(names) => Lift(ss, EnablePlugins(st, names))
    case Disable(names, reason) => Lift(ss, DisablePlugins(st, names, reason))
  }

  function Lift(ss: Session, step: Step): SessionStep {
    SessionStep(ss.(store := step.store), step.events)
  }

  /** The loader-result handler leaves the attached loader alone. */
  lemma LoaderUntouched(s: Store, result: LoaderResult, freshHash: string)
    ensures HandleLoaderResult(s, result, freshHash).store.loader == s.loader
  {
  }

  /** Calls in order; the events are those of each call, in order. */
  function Run(ss: Session, ops: seq<Op>): (r: SessionStep)
    ensures ops == [] ==> r == SessionStep(ss, [])
    decreases |ops|
  {
    if ops == [] then SessionStep(ss, [])
    else
      var first := Apply(ss, ops[0]);
      var rest := Run(first.session, ops[1..]);
      SessionStep(rest.session, first.events + rest.events)
  }

  lemma ApplyPreservesValid(ss: Session, op: Op)
    requires Valid(ss.store) && Consistent(ss)
    ensures Valid(Apply(ss, op).session.store) && Consistent(Apply(ss, op).session)
  {
    var s := ss.store;
    match op
    case AttachLoader(l) =>
    case DetachLoader(l) =>
    case Deliver(l, result, hash) =>
      if l in ss.subscribed {
        HandleLoaderResultPreservesValid(s, result, hash);
      }
    case SetFlags(patch) => SetFeatureFlagsPreservesValid(s, patch);
    case Enable(names) => SetPluginsEnabledPreservesValid(s, names, true, None);
    case Disable(names, reason) => SetPluginsEnabledPreservesValid(s, names, false, reason);
  }

  lemma {:induction false} RunPreservesValid(ss: Session, ops: seq<Op>)
    requires Valid(ss.store) && Consistent(ss)
    ensures Valid(Run(ss, ops).session.store) && Consistent(Run(ss, ops).session)
    decreases |ops|
  {
    if ops != [] {
      ApplyPreservesValid(ss, ops[0]);
      RunPreservesValid(Apply(ss, ops[0]).session, ops[1..]);
    }
  }

  /** A disconnect function called after its loader was replaced: it clears the newer
      loader without unsubscribing it, so the store reports no loader while the newer
      one still delivers results, and a third loader can then be attached beside it. */
  lemma StaleDisconnect(options: StoreOptions, result: LoaderResult, freshHash: string)
    requires result.LoadSucceeded?
    ensures var l1, l2, l3 := LoaderId(1), LoaderId(2), LoaderId(3);
            var ss := Run(NewSession(options), [AttachLoader(l1), DetachLoader(l1), AttachLoader(l2), DetachLoader(l1)]).session;
            && !HasLoader(ss.store) && l2 in ss.subscribed
            && Has(Apply(ss, Deliver(l2, result, freshHash)).session.store.loaded, result.manifest.name)
            && Apply(ss, AttachLoader(l3)).session.subscribed == {l2, l3}
  {
    var l1, l2, l3 := LoaderId(1), LoaderId(2), LoaderId(3);
    var s0 := NewSession(options);
    var s1 := Apply(s0, AttachLoader(l1)).session;
    var s2 := Apply(s1, DetachLoader(l1)).session;
    var s3 := Apply(s2, AttachLoader(l2)).session;
    var s4 := Apply(s3, DetachLoader(l1)).session;
    var ops := [AttachLoader(l1), DetachLoader(l1), AttachLoader(l2), DetachLoader(l1)];
    RunCons(s0, ops);
    RunCons(s1, ops[1..]);
    RunCons(s2, ops[2..]);
    RunCons(s3, ops[3..]);
    assert ops[3..][1..] == [];
    assert s4.subscribed == {l2};
    assert s4.store.loaded == [];
  }

  /** Running a non-empty sequence runs its first call, then the rest. */
  lemma RunCons(ss: Session, ops: seq<Op>)
    requires ops != []
    ensures Run(ss, ops).session == Run(Apply(ss, ops[0]).session, ops[1..]).session
  {
  }

  /** After any sequence of calls on a new store, an attached loader is still
      subscribed, no name is both loaded and failed, and `getExtensions` is the pure function of the plugins and flags: the in-use
      extensions of the enabled plugins in load order, holding exactly the
      extensions some enabled plugin declares whose flags are met. */
  lemma Reachable(options: StoreOptions, ops: seq<Op>)
    ensures Consistent(Run(NewSession(options), ops).session)
    ensures var s := Run(NewSession(options), ops).session.store;
            && (forall k :: Has(s.loaded, k) ==> !Has(s.failed, k))
            && GetExtensions(s) == ConcatInUse(Values(s.loaded), s.flags)
            && forall e :: e in GetExtensions(s) <==>
                 exists i :: 0 <= i < |s.loaded| && s.loaded[i].value.enabled && e in s.loaded[i].value.extensions
                             && IsExtensionInUse(e, s.flags)
  {
    var s := Run(NewSession(options), ops).session.store;
    RunPreservesValid(NewSession(options), ops);
    forall e ensures e in GetExtensions(s) <==>
                 exists i :: 0 <= i < |s.loaded| && s.loaded[i].value.enabled && e in s.loaded[i].value.extensions
                             && IsExtensionInUse(e, s.flags)
    {
      InUseMembership(Values(s.loaded), s.flags, e);
    }
  }

  // ---------------------------------------------------------------------------
  // Repeating and reordering calls

  /** Repeating `setPluginsEnabled` with the same arguments changes nothing and emits
      nothing. */
  lemma SetPluginsEnabledIdempotent(s: Store, names: seq<string>, enabled: bool, reason: Option<string>)
    requires UniqueKeys(s.loaded)
    ensures var first := SetPluginsEnabled(s, names, enabled, reason);
            SetPluginsEnabled(first.store, names, enabled, reason) == Step(first.store, [])
  {
    var t := SetPluginsEnabled(s, names, enabled, reason).store;
    forall i | 0 <= i < |t.loaded| ensures !Flips(t.loaded[i], names, enabled) {
      assert t.loaded[i].value == Flipped(s.loaded[i], names, enabled, reason);
    }
  }

  /** Enabling the same plugins twice emits events only the first time. */
  lemma EnableTwiceIsSilent(s: Store, names: seq<string>)
    requires UniqueKeys(s.loaded)
    ensures EnablePlugins(EnablePlugins(s, names).store, names).events == []
  {
    SetPluginsEnabledIdempotent(s, names, true, None);
  }

  /** Repeating `setFeatureFlags` with the same patch changes nothing and emits
      nothing. */
  lemma SetFeatureFlagsIdempotent(s: Store, patch: map<string, Value>)
    ensures var first := SetFeatureFlags(s, patch);
            SetFeatureFlags(first.store, patch) == Step(first.store, [])
  {
    var f := SetFeatureFlags(s, patch).store.flags;
    assert MergeFlags(f, patch) == f;
  }

  /** Changing flags and enabling or disabling plugins commute: either order gives the
      same store (the events may come in a different order). */
  lemma {:induction false} FlagsAndEnablementCommute(s: Store, patch: map<string, Value>, names: seq<string>,
                                                    enabled: bool, reason: Option<string>)
    requires UniqueKeys(s.loaded)
    ensures SetFeatureFlags(SetPluginsEnabled(s, names, enabled, reason).store, patch).store
            == SetPluginsEnabled(SetFeatureFlags(s, patch).store, names, enabled, reason).store
  {
    var a1 := SetPluginsEnabled(s, names, enabled, reason);
    var a2 := SetFeatureFlags(a1.store, patch);
    var b1 := SetFeatureFlags(s, patch);
    var b2 := SetPluginsEnabled(b1.store, names, enabled, reason);
    assert a2.store.loaded == b2.store.loaded;
    assert a2.store.flags == b2.store.flags;
  }

  // ---------------------------------------------------------------------------
  // Uids

  /** A run of digits followed by a closing bracket splits in one way only. */
  lemma DigitsThenBracket(a: string, x: string, b: string, y: string)
    requires forall k :: 0 <= k < |a| ==> '0' <= a[k] <= '9'
    requires forall k :: 0 <= k < |b| ==> '0' <= b[k] <= '9'
    requires |x| > 0 && x[0] == ']' && |y| > 0 && y[0] == ']'
    requires a + x == b + y
    ensures a == b && x == y
  {
    assert a == (a + x)[..|a|];
    assert b == (b + y)[..|b|];
    assert x == (a + x)[|a|..];
    assert y == (b + y)[|b|..];
  }

  /** A uid determines its position and build hash. */
  lemma {:induction false} UidInjective(name: string, i: nat, hash1: string, j: nat, hash2: string)
    requires Uid(name, i, hash1) == Uid(name, j, hash2)
    ensures i == j && hash1 == hash2
  {
    var a := NatToString(i);
    var b := NatToString(j);
    var x := "]_" + hash1;
    var y := "]_" + hash2;
    assert Uid(name, i, hash1) == (name + "[") + (a + x);
    assert Uid(name, j, hash2) == (name + "[") + (b + y);
    assert a + x == Uid(name, i, hash1)[|name| + 1..];
    assert b + y == Uid(name, j, hash2)[|name| + 1..];
    DigitsThenBracket(a, x, b, y);
    ParseNatToString(i);
    ParseNatToString(j);
    assert hash1 == x[2..];
    assert hash2 == y[2..];
  }

  /** Two loads of one plugin with different build hashes give every extension a
      different uid, even at the same position. */
  lemma ReloadUidsDiffer(name: string, exts1: seq<Extension>, exts2: seq<Extension>, entry1: EntryModule,
                         entry2: EntryModule, hash1: string, hash2: string, i: nat, j: nat)
    requires hash1 != hash2 && i < |exts1| && j < |exts2|
    ensures ProcessExtensions(name, hash1, exts1, entry1)[i].uid != ProcessExtensions(name, hash2, exts2, entry2)[j].uid
  {
    if Uid(name, i, hash1) == Uid(name, j, hash2) {
      UidInjective(name, i, hash1, j, hash2);
    }
  }

  /** The extensions of one load have pairwise different uids. */
  lemma UidsDistinctWithinLoad(name: string, hash: string, exts: seq<Extension>, entry: EntryModule, i: nat, j: nat)
    requires i < j < |exts|
    ensures ProcessExtensions(name, hash, exts, entry)[i].uid != ProcessExtensions(name, hash, exts, entry)[j].uid
  {
    if Uid(name, i, hash) == Uid(name, j, hash) {
      UidInjective(name, i, hash, j, hash);
    }
  }
}

=== FILE: types.dfy ===
/** The data the plugin runtime works on: extension property trees, the code
    references inside them, extensions, and the events the store emits. */
module Types {
  import opened Wrappers

  /** Opaque handle of a plugin's entry module (`PluginEntryModule`). */
  datatype EntryModule = EntryModule(id: nat)

  /** Opaque error raised by an entry module while a module is fetched or built. */
  datatype Cause = Cause(id: nat)

  /** A decoded code reference: the closure `createCodeRef` builds, described by
      what it closes over — the `$codeRef` string, the entry module, and the uid of the
      owning extension that its error messages mention. */
  datatype CodeRef = CodeRef(encoded: string, entry: EntryModule, uid: string)

  /** An extension's property tree. `Obj` is a plain object whose fields are kept in
      property order; `Opaque` is any other object (a function or class instance),
      which is neither walked into nor taken for an encoded code reference; `Ref` is a
      decoded code reference. Numbers are kept only for their identity. */
  datatype Value =
    | Undefined
    | Null
    | Bool(b: bool)
    | Num(n: int)
    | Str(s: string)
    | Opaque(id: nat)
    | Arr(items: seq<Value>)
    | Obj(fields: seq<Field>)
    | Ref(ref: CodeRef)

  datatype Field = Field(key: string, value: Value)

  /** The exported bindings of a module, by export name. */
  type Module = map<string, Value>

  /** What an entry module's `get(moduleName)` followed by the factory call yields:
      the module, or the error either step raised. */
  type ModuleLoader = (EntryModule, string) -> Result<Module, Cause>

  /** `extension.flags`: either list may be missing. */
  datatype ExtensionFlags = ExtensionFlags(required: Option<seq<string>>, disallowed: Option<seq<string>>)

  /** An extension as declared in a plugin manifest; `kind` is its `type`. */
  datatype Extension = Extension(kind: string, properties: Value, flags: Option<ExtensionFlags>)

  /** An extension once its plugin is loaded: tagged with the plugin name and a uid. */
  datatype LoadedExtension =
    LoadedExtension(kind: string, properties: Value, flags: Option<ExtensionFlags>, pluginName: string, uid: string)

  /** `PluginEventType`. */
  datatype Event = PluginInfoChanged | ExtensionsChanged | FeatureFlagsChanged
}

=== FILE: visitor.dfy ===
/** A structural model of the `visitDeep` helper the code-reference functions use:
    it walks the own properties of an object or array; a value the predicate accepts is
    handed to the callback and is not walked into; any other array or plain object is
    walked recursively; every other value is left alone. The root itself is never
    tested, only its properties. */
module Visitor {
  import opened Types

  /** The visit as the source performs it, as a fold: every accepted value is replaced
      by the first component of `f`, and the second components are collected in visit
      order. */
  function VisitDeep<A>(v: Value, accept: Value -> bool, f: Value -> (Value, seq<A>)): (Value, seq<A>)
    decreases v
  {
    match v
    case Arr(items) =>
      var (items', out) := VisitItems(items, accept, f);
      (Arr(items'), out)
    case Obj(fields) =>
      var (fields', out) := VisitFields(fields, accept, f);
      (Obj(fields'), out)
    case _ => (v, [])
  }

  function VisitItems<A>(items: seq<Value>, accept: Value -> bool, f: Value -> (Value, seq<A>)): (seq<Value>, seq<A>)
    decreases items
  {
    if items == [] then ([], [])
    else
      var (c, o1) := if accept(items[0]) then f(items[0]) else VisitDeep(items[0], accept, f);
      var (rest, o2) := VisitItems(items[1..], accept, f);
      ([c] + rest, o1 + o2)
  }

  function VisitFields<A>(fields: seq<Field>, accept: Value -> bool, f: Value -> (Value, seq<A>)): (seq<Field>, seq<A>)
    decreases fields
  {
    if fields == [] then ([], [])
    else
      var x := fields[0].value;
      var (c, o1) := if accept(x) then f(x) else VisitDeep(x, accept, f);
      var (rest, o2) := VisitFields(fields[1..], accept, f);
      ([Field(fields[0].key, c)] + rest, o1 + o2)
  }

  /** Reference definition of the rewrite, position by position: the tree with every
      accepted value below the root replaced by `g` of it. Keys, lengths and every value
      that is not accepted and not a container stay as they are. */
  function MapDeep(v: Value, accept: Value -> bool, g: Value -> Value): (r: Value)
    ensures v.Arr? <==> r.Arr?
    ensures v.Arr? ==> |r.items| == |v.items|
    ensures v.Obj? <==> r.Obj?
    ensures v.Obj? ==> |r.fields| == |v.fields| && forall i :: 0 <= i < |v.fields| ==> r.fields[i].key == v.fields[i].key
    ensures !v.Arr? && !v.Obj? ==> r == v
    decreases v
  {
    match v
    case Arr(items) => Arr(MapItems(items, accept, g))
    case Obj(fields) => Obj(MapFields(fields, accept, g))
    case _ => v
  }

  function MapItems(items: seq<Value>, accept: Value -> bool, g: Value -> Value): (r: seq<Value>)
    ensures |r| == |items|
    decreases items
  {
    seq(|items|, i requires 0 <= i < |items| =>
      if accept(items[i]) then g(items[i]) else MapDeep(items[i], accept, g))
  }

  function MapFields(fields: seq<Field>, accept: Value -> bool, g: Value -> Value): (r: seq<Field>)
    ensures |r| == |fields|
    ensures forall i :: 0 <= i < |fields| ==> r[i].key == fields[i].key
    decreases fields
  {
    seq(|fields|, i requires 0 <= i < |fields| =>
      var x := fields[i].value;
      Field(fields[i].key, if accept(x) then g(x) else MapDeep(x, accept, g)))
  }

  /** What the rewrite makes of one child. */
  function MapChild(c: Value, accept: Value -> bool, g: Value -> Value): Value {
    if accept(c) then g(c) else MapDeep(c, accept, g)
  }

  lemma MapItemsAt(items: seq<Value>, accept: Value -> bool, g: Value -> Value)
    ensures forall i :: 0 <= i < |items| ==> MapItems(items, accept, g)[i] == MapChild(items[i], accept, g)
  {
  }

  lemma MapFieldsAt(fields: seq<Field>, accept: Value -> bool, g: Value -> Value)
    ensures forall i :: 0 <= i < |fields| ==>
              MapFields(fields, accept, g)[i] == Field(fields[i].key, MapChild(fields[i].value, accept, g))
  {
  }

  /** The values the visit hands to its callback, in visit order. */
  function Matches(v: Value, accept: Value -> bool): (r: seq<Value>)
    ensures forall i :: 0 <= i < |r| ==> accept(r[i])
    decreases v
  {
    match v
    case Arr(items) => MatchItems(items, accept)
    case Obj(fields) => MatchFields(fields, accept)
    case _ => []
  }

  function MatchItems(items: seq<Value>, accept: Value -> bool): (r: seq<Value>)
    ensures forall i :: 0 <= i < |r| ==> accept(r[i])
    decreases items
  {
    if items == [] then []
    else (if accept(items[0]) then [items[0]] else Matches(items[0], accept)) + MatchItems(items[1..], accept)
  }

  function MatchFields(fields: seq<Field>, accept: Value -> bool): (r: seq<Value>)
    ensures forall i :: 0 <= i < |r| ==> accept(r[i])
    decreases fields
  {
    if fields == [] then []
    else
      var x := fields[0].value;
      (if accept(x) then [x] else Matches(x, accept)) + MatchFields(fields[1..], accept)
  }

  /** What a callback emits for a sequence of values, concatenated in order. */
  function Emitted<A>(cs: seq<Value>, f: Value -> (Value, seq<A>)): seq<A>
  {
    if cs == [] then [] else f(cs[0]).1 + Emitted(cs[1..], f)
  }

  /** No value anywhere below the root satisfies `p`. */
  ghost predicate NoneBelow(v: Value, p: Value -> bool)
    decreases v
  {
    match v
    case Arr(items) => forall i :: 0 <= i < |items| ==> !p(items[i]) && NoneBelow(items[i], p)
    case Obj(fields) => forall i :: 0 <= i < |fields| ==> !p(fields[i].value) && NoneBelow(fields[i].value, p)
    case _ => true
  }

  lemma {:induction false} EmittedAppend<A>(a: seq<Value>, b: seq<Value>, f: Value -> (Value, seq<A>))
    ensures Emitted(a + b, f) == Emitted(a, f) + Emitted(b, f)
  {
    if a != [] {
      assert (a + b)[1..] == a[1..] + b;
      EmittedAppend(a[1..], b, f);
    } else {
      assert a + b == b;
    }
  }

  /** The fold rewrites the tree exactly as the position-by-position definition does. */
  lemma {:induction false} VisitRewrites<A>(v: Value, accept: Value -> bool, f: Value -> (Value, seq<A>), g: Value -> Value)
    requires forall c :: g(c) == f(c).0
    ensures VisitDeep(v, accept, f).0 == MapDeep(v, accept, g)
    decreases v
  {
    match v
    case Arr(items) => VisitItemsRewrites(items, accept, f, g);
    case Obj(fields) => VisitFieldsRewrites(fields, accept, f, g);
    case _ =>
  }

  lemma {:induction false} VisitItemsRewrites<A>(items: seq<Value>, accept: Value -> bool, f: Value -> (Value, seq<A>), g: Value -> Value)
    requires forall c :: g(c) == f(c).0
    ensures VisitItems(items, accept, f).0 == MapItems(items, accept, g)
    decreases items
  {
    if items != [] {
      if !accept(items[0]) {
        VisitRewrites(items[0], accept, f, g);
      }
      VisitItemsRewrites(items[1..], accept, f, g);
      var tail := MapItems(items[1..], accept, g);
      var all := MapItems(items, accept, g);
      assert forall i :: 0 <= i < |tail| ==> tail[i] == all[i + 1];
      assert all == [all[0]] + tail;
    }
  }

  lemma {:induction false} VisitFieldsRewrites<A>(fields: seq<Field>, accept: Value -> bool, f: Value -> (Value, seq<A>), g: Value -> Value)
    requires forall c :: g(c) == f(c).0
    ensures VisitFields(fields, accept, f).0 == MapFields(fields, accept, g)
    decreases fields
  {
    if fields != [] {
      if !accept(fields[0].value) {
        VisitRewrites(fields[0].value, accept, f, g);
      }
      VisitFieldsRewrites(fields[1..], accept, f, g);
      var tail := MapFields(fields[1..], accept, g);
      var all := MapFields(fields, accept, g);
      assert forall i :: 0 <= i < |tail| ==> tail[i] == all[i + 1];
      assert all == [all[0]] + tail;
    }
  }

  /** The fold emits, in order, what the callback emits for each visited value. */
  lemma {:induction false} VisitEmits<A>(v: Value, accept: Value -> bool, f: Value -> (Value, seq<A>))
    ensures VisitDeep(v, accept, f).1 == Emitted(Matches(v, accept), f)
    decreases v
  {
    match v
    case Arr(items) => VisitItemsEmit(items, accept, f);
    case Obj(fields) => VisitFieldsEmit(fields, accept, f);
    case _ =>
  }

  lemma {:induction false} VisitItemsEmit<A>(items: seq<Value>, accept: Value -> bool, f: Value -> (Value, seq<A>))
    ensures VisitItems(items, accept, f).1 == Emitted(MatchItems(items, accept), f)
    decreases items
  {
    if items != [] {
      var head := if accept(items[0]) then [items[0]] else Matches(items[0], accept);
      if accept(items[0]) {
        assert Emitted(head, f) == f(items[0]).1 + Emitted([], f);
      } else {
        VisitEmits(items[0], accept, f);
      }
      VisitItemsEmit(items[1..], accept, f);
      EmittedAppend(head, MatchItems(items[1..], accept), f);
    }
  }

  lemma {:induction false} VisitFieldsEmit<A>(fields: seq<Field>, accept: Value -> bool, f: Value -> (Value, seq<A>))
    ensures VisitFields(fields, accept, f).1 == Emitted(MatchFields(fields, accept), f)
    decreases fields
  {
    if fields != [] {
      var x := fields[0].value;
      var head := if accept(x) then [x] else Matches(x, accept);
      if accept(x) {
        assert Emitted(head, f) == f(x).1 + Emitted([], f);
      } else {
        VisitEmits(x, accept, f);
      }
      VisitFieldsEmit(fields[1..], accept, f);
      EmittedAppend(head, MatchFields(fields[1..], accept), f);
    }
  }

  /** With nothing to visit, the rewrite leaves the tree as it is. */
  lemma {:induction false} MapDeepUntouched(v: Value, accept: Value -> bool, g: Value -> Value)
    requires Matches(v, accept) == []
    ensures MapDeep(v, accept, g) == v
    decreases v
  {
    match v
    case Arr(items) =>
      MapItemsUntouched(items, accept, g);
    case Obj(fields) =>
      MapFieldsUntouched(fields, accept, g);
    case _ =>
  }

  lemma {:induction false} MapItemsUntouched(items: seq<Value>, accept: Value -> bool, g: Value -> Value)
    requires MatchItems(items, accept) == []
    ensures MapItems(items, accept, g) == items
    decreases items
  {
    if items != [] {
      assert !accept(items[0]);
      MapDeepUntouched(items[0], accept, g);
      MapItemsUntouched(items[1..], accept, g);
      var tail := MapItems(items[1..], accept, g);
      var all := MapItems(items, accept, g);
      assert forall i :: 0 <= i < |tail| ==> tail[i] == all[i + 1];
      assert all == [all[0]] + tail;
      assert items == [items[0]] + items[1..];
    }
  }

  lemma {:induction false} MapFieldsUntouched(fields: seq<Field>, accept: Value -> bool, g: Value -> Value)
    requires MatchFields(fields, accept) == []
    ensures MapFields(fields, accept, g) == fields
    decreases fields
  {
    if fields != [] {
      assert !accept(fields[0].value);
      MapDeepUntouched(fields[0].value, accept, g);
      MapFieldsUntouched(fields[1..], accept, g);
      var tail := MapFields(fields[1..], accept, g);
      var all := MapFields(fields, accept, g);
      assert forall i :: 0 <= i < |tail| ==> tail[i] == all[i + 1];
      assert all == [all[0]] + tail;
      assert fields == [fields[0]] + fields[1..];
    }
  }

  /** A tree with nothing accepted anywhere below the root offers nothing to visit. */
  lemma {:induction false} NoneBelowNoMatches(v: Value, p: Value -> bool)
    requires NoneBelow(v, p)
    ensures Matches(v, p) == []
    decreases v
  {
    match v
    case Arr(items) => NoneBelowNoItemMatches(items, p);
    case Obj(fields) => NoneBelowNoFieldMatches(fields, p);
    case _ =>
  }

  lemma {:induction false} NoneBelowNoItemMatches(items: seq<Value>, p: Value -> bool)
    requires forall i :: 0 <= i < |items| ==> !p(items[i]) && NoneBelow(items[i], p)
    ensures MatchItems(items, p) == []
    decreases items
  {
    if items != [] {
      NoneBelowNoMatches(items[0], p);
      NoneBelowNoItemMatches(items[1..], p);
    }
  }

  lemma {:induction false} NoneBelowNoFieldMatches(fields: seq<Field>, p: Value -> bool)
    requires forall i :: 0 <= i < |fields| ==> !p(fields[i].value) && NoneBelow(fields[i].value, p)
    ensures MatchFields(fields, p) == []
    decreases fields
  {
    if fields != [] {
      NoneBelowNoMatches(fields[0].value, p);
      NoneBelowNoFieldMatches(fields[1..], p);
    }
  }

  /** Where a visited value comes from: a child that is accepted, or a value visited
      inside a child that is not. */
  lemma {:induction false} MatchItemsFrom(items: seq<Value>, accept: Value -> bool, x: Value)
    requires x in MatchItems(items, accept)
    ensures exists i :: 0 <= i < |items| &&
              ((accept(items[i]) && x == items[i]) || (!accept(items[i]) && x in Matches(items[i], accept)))
    decreases items
  {
    var head := if accept(items[0]) then [items[0]] else Matches(items[0], accept);
    if x !in head {
      MatchItemsFrom(items[1..], accept, x);
      var i :| 0 <= i < |items[1..]| &&
        ((accept(items[1..][i]) && x == items[1..][i]) || (!accept(items[1..][i]) && x in Matches(items[1..][i], accept)));
      assert items[1..][i] == items[i + 1];
    }
  }

  lemma {:induction false} MatchFieldsFrom(fields: seq<Field>, accept: Value -> bool, x: Value)
    requires x in MatchFields(fields, accept)
    ensures exists i :: 0 <= i < |fields| &&
              ((accept(fields[i].value) && x == fields[i].value) || (!accept(fields[i].value) && x in Matches(fields[i].value, accept)))
    decreases fields
  {
    var y := fields[0].value;
    var head := if accept(y) then [y] else Matches(y, accept);
    if x !in head {
      MatchFieldsFrom(fields[1..], accept, x);
      var i :| 0 <= i < |fields[1..]| &&
        ((accept(fields[1..][i].value) && x == fields[1..][i].value) || (!accept(fields[1..][i].value) && x in Matches(fields[1..][i].value, accept)));
      assert fields[1..][i] == fields[i + 1];
    }
  }
}

=== FILE: wrappers.dfy ===
/** Option and Result, the failure-carrying shapes the rest of the model returns
    instead of `undefined` and thrown errors. */
module Wrappers {

  /** A value that may be absent (`undefined` in the source). */
  datatype Option<+T> = None | Some(value: T) {

    /** The wrapped value, or `default` when absent (the `??` operator). */
    function GetOr(default: T): T {
      match this
      case Some(v) => v
      case None => default
    }
  }

  /** Either a value or the error an operation would have thrown. */
  datatype Result<+T, +E> = Success(value: T) | Failure(error: E)
}
